=== FILE: README.md ===
# Metro route search — a Dafny model

This project models the route-search engine of a metro journey planner
(`src/main.py`). The engine runs on station records and on transfer rules:

- Each station record places a station on one line, with a coordinate and
  an optional order hint.
- Each transfer rule authorises a change between (station, line) pairs.

The engine works in three parts:

- It builds a **station graph**. Each station gets one node holding its
  coordinate, its lines and its line-tagged connections. Consecutive
  stations of each line, stably sorted by order hint, are linked both ways.
  Each rule whose two stations are known adds one link in each direction.
- It builds a **transfer cache** that holds every rule in both directions.
  A move is valid when it stays on the same line or when the cache holds it.
- It runs an **A\* search** over (station, line) states. The frontier is a
  priority queue with lazy deletion and an insertion counter for tie-breaks.
  The search keeps an explored set and three maps: best cost, predecessor
  and transfer count. When the goal state is popped, the engine follows the
  predecessors back to the start. It then reports the station list, an
  itinerary (start, one block per line change, destination), the cost and
  the number of transfers.

The modules follow that structure:

- `Network` (network.dfy): the shared data model and the cost constants
  (2.0, 0.5, and the default order hint 9999).
- `Transfers` (transfers.dfy): the transfer cache.
- `OrderSort` (stable_sort.dfy): the stable sort of a line's stops.
- `GraphBuilder` (graph_builder.dfy): the three passes of the graph
  construction.
- `Frontier` (frontier.dfy): the priority queue.
- `Itinerary` (itinerary.dfy): the path details.
- `Pathfinder` (pathfinder.dfy): the cost function, seeding, relaxation,
  the main loop, reconstruction and `FindPath`.

`Pathfinder.FindPath` is proved correct in both directions:

- When it returns a route, the route's path is a walk from a start state to
  a goal state. Each step of the walk follows a graph connection that the
  transfer validator accepts. The reported distance is the sum of the step
  costs along the path. The transfer count is the number of line changes.
  The stations and the itinerary are those of the path.
- When both stations are known and it returns nothing, no such walk exists.

The search has the signature `FindPath(g, cache, dist, start, goal,
endLine)`:

- The distance function `dist` is a parameter. The great-circle distance
  itself is not modelled.
- The rules that the graph builder loads from disk are a parameter of
  `CreateStationGraph`.

`FindPath` requires that every connection lead to a station of the graph.
The source looks up the coordinates of every neighbour it relaxes, and the
builder never produces a dangling connection:
`GraphBuilder.CreateStationGraphWellFormed` proves that every graph it
produces meets the requirement.

The explored check at `src/main.py:209-210` never fires. A state is queued
only while it is unexplored. Popping a state removes its only live entry,
and after that the state is explored and never queued again. The model
keeps this branch (the `else` of `Pathfinder.SearchStep`), and there it only
drops the popped entry.

## Model

| member | source | states |
|---|---|---|
| `Itinerary.TransferNotes` | src/main.py:53-60 | the transfer entries are three per line change of the path |
| `Itinerary.PathDetails` | src/main.py:48-65 | the itinerary opens with the first state's Start entry and closes with the last state's Destination entry, with three entries per line change between them |
| `Itinerary.TransferNotesAt` | src/main.py:53-60 | where the line changes into position i, after k earlier changes, entries 3k..3k+2 name the station reached, the line left and the line entered |
| `Itinerary.NotesTransferStations` | src/main.py:53-60 | a station appears in a transfer entry exactly when the path changes line on arriving there |
| `Itinerary.TransferStationsExact` | src/main.py:48-65 | the itinerary names a transfer at a station if and only if some step into that station changes line |
| `Frontier.EmptyQueue` | src/main.py:67-71 | a new queue is well formed and has no live item |
| `Frontier.IsEmpty` | src/main.py:73-74 | the queue reports empty exactly when no item has a live entry |
| `Frontier.MarkRemoved` | src/main.py:84-86 | after removal no entry carries the item, every entry of another item is kept, every entry still carrying an item was already there, and each position keeps its priority and counter |
| `Frontier.Put` | src/main.py:76-86 | a put keeps the queue well formed and adds the item to the live items. The item's only live entry then carries the new priority and the current counter, which advances by one. Other live entries are unchanged |
| `Frontier.KeepAfter` | src/main.py:89-91 | popping up to an entry keeps exactly the entries whose key follows it, so the pop strictly shortens the heap |
| `Frontier.Get` | src/main.py:88-94 | on an empty queue it returns nothing and the heap is exhausted. Otherwise it returns the item of the live entry with the least (priority, counter), removes only that item from the live items, and keeps every other live entry |
| `Frontier.PutTwiceKeepsLatest` | src/main.py:76-86 | after an item is put twice, every live entry for it carries the second priority |
| `Frontier.EqualPriorityFirstIn` | src/main.py:79-82 | of two distinct items put one after the other with equal priority, every live entry of the first sorts before every live entry of the second |
| `Frontier.PutUniformPriority` | src/main.py:76-86 | a put at priority p into a queue whose entries all carry p leaves every entry at p |
| `Frontier.LeastIsUnique` | src/main.py:88-94 | the least live entry is unique, so the pop is deterministic |
| `Transfers.BuildCache` | src/main.py:97-107 | the cache holds a tuple exactly when some rule gives it in one of its two orientations |
| `Transfers.ValidTransferIff` | src/main.py:109-112 | a move is valid exactly when it keeps the line or some rule authorises it |
| `Transfers.ValidTransferSymmetric` | src/main.py:96-112 | a move is valid from A to B exactly when it is valid from B to A |
| `Transfers.RuleAuthorizesBothWays` | src/main.py:99-107 | every rule makes both of its directions valid |
| `GraphBuilder.AddStationsSpec` | src/main.py:118-130 | the first pass creates a node exactly for each station that some record names. The node's lines are the lines of its records, its coordinate is that of its first record, and it has no connections yet |
| `GraphBuilder.StopsServe` | src/main.py:132-137 | every stop in a line's list is a station that some record puts on that line |
| `GraphBuilder.LineOrder` | src/main.py:132-139 | the lines are visited once each, exactly those that some record names, and in the order in which each line first appears in the records |
| `GraphBuilder.NeighboursOnMembers` | src/main.py:141-145 | the links one line gives a station are exactly its neighbours in the sorted stop list, tagged with the line |
| `GraphBuilder.AddLineEdgesSpec` | src/main.py:141-145 | one line's pass appends to a station, pair by pair in stop order, a link to each neighbour in the sorted stop list (repeats kept), and keeps the coordinate and lines; as a set, the links added are exactly its neighbours on that line |
| `GraphBuilder.AddAllLinesSpec` | src/main.py:139-145 | the line pass appends to a station its neighbour links line by line, in the order the lines are visited, and keeps the coordinate and lines; as a set, the links added are exactly its neighbours on those lines |
| `GraphBuilder.AddRuleEdgesSpec` | src/main.py:147-154 | the rule pass appends to a station, rule by rule, the link each rule gives it when both of the rule's stations are in the graph, and keeps the coordinate and lines; as a set, the links added are exactly those rule links |
| `GraphBuilder.CreateStationGraphKeys` | src/main.py:118-128 | the built graph has a node exactly for each station that some record names |
| `GraphBuilder.CreateStationGraphNodes` | src/main.py:118-130 | a node's lines are exactly the lines of that station's records, and its coordinate is that of its first record |
| `GraphBuilder.CreateStationGraphConns` | src/main.py:132-154 | a node's connection list is its line links, line by line in order of first appearance, then its rule links in rule order |
| `GraphBuilder.CreateStationGraphEdges` | src/main.py:132-154 | a node's connections are exactly its sorted-list neighbours on each line, plus the rule links between known stations, in the order just stated |
| `GraphBuilder.CreateStationGraphSpec` | src/main.py:115-156 | the facts above, combined for any station, line and connection, including the exact connection list |
| `GraphBuilder.CreateStationGraphWellFormed` | src/main.py:141-154 | every connection of the built graph leads to a station of the graph |
| `GraphBuilder.LineEdgeServesLine` | src/main.py:141-145 | a line connection joins two known stations that both serve that line |
| `OrderSort.Sort` | src/main.py:140 | the sort returns a permutation of the stops, ordered by hint |
| `OrderSort.SortMembers` | src/main.py:140 | sorting neither adds nor drops a stop |
| `OrderSort.SortIsStable` | src/main.py:140 | for each hint value, the stops carrying it keep their input order |
| `Pathfinder.CalculateCost` | src/main.py:167-175 | a same-line step costs the distance. A line-changing step with a non-negative distance costs at least the distance plus the 0.5 penalty |
| `Pathfinder.RelaxStepChanged` | src/main.py:228-236 | a relaxation step changes no state but the neighbour, and that one only when the step improves its cost; it then records the current state as predecessor, the cost through it, and the transfer count through it |
| `Pathfinder.RelaxStepPrioritized` | src/main.py:237-240 | after a relaxation step every live frontier entry still carries its item's best known cost plus the heuristic of its station |
| `Pathfinder.RelaxStep` | src/main.py:224-240 | when the cost through the current state beats the neighbour's known cost, or none is known, the neighbour gets that cost, the current state as predecessor, and the current transfer count plus one on a line change. Every other state keeps its cost, predecessor and transfer count, and the neighbour is put on the frontier at its new cost plus the heuristic. Otherwise maps and frontier are unchanged |
| `Pathfinder.Relax` | src/main.py:224-240 | performs exactly the relaxation step above. It keeps the maps invariant and the frontier in step with the known unexplored states, never raises a known cost, leaves every state other than the neighbour untouched (cost, predecessor and transfer count), and leaves the neighbour with a cost no greater than the current state's cost plus the step. A state that changes is the neighbour, reached by an improving step and recorded as reached from the current state. Every live entry stays keyed by its item's cost plus heuristic |
| `Pathfinder.ExpandFrom` | src/main.py:213-240 | from a given connection on, every connection is refused by the validator or ends with a known cost, and every valid unexplored one ends with a cost no greater than the current state's cost plus the step. A known state that is not a connection of the current station keeps its cost, predecessor and transfer count. Any state that changes is a remaining connection, accepted by the validator, unexplored and improved through the current state, and its new cost, predecessor and transfer count are those through the current state, strictly below any cost it had. Every live entry stays keyed by cost plus heuristic |
| `Pathfinder.ExpandState` | src/main.py:213-240 | after expansion, every valid step out of the state leads to a known state, and every valid step to an unexplored state ends with a cost no greater than the current state's cost plus the step. No known cost rises, only neighbours are added, a known state that is not a connection of the current station keeps its cost, predecessor and transfer count, and the invariant holds. Any state that changes is a valid, unexplored, improving step out of the state and is recorded as reached from it. Every live entry stays keyed by cost plus heuristic |
| `Pathfinder.SeedFrontier` | src/main.py:184-196 | the seeded states are exactly the start station on each of its lines, at cost zero with no predecessor, and all of them are queued, every entry at the heuristic value of the start station, which is each seed's cost zero plus the heuristic |
| `Pathfinder.SeedPrioritized` | src/main.py:190-196 | the seeded frontier has every live entry keyed by its state's cost (zero) plus the heuristic of the start station |
| `Pathfinder.BestFirst` | src/main.py:200-201 | when every live entry is keyed by cost plus heuristic, the least live entry's state has the least cost plus heuristic of all known unexplored states |
| `Pathfinder.Visit` | src/main.py:211-240 | marking the popped state explored and relaxing its connections keeps the loop invariant, leaves explored states' costs and predecessors unchanged, and leaves every valid step to an unexplored state known, with a cost no greater than the popped state's cost plus the step. No known cost rises; a known state that is not a connection of the popped station keeps its record; any state that changes is a valid, unexplored, improving step from the popped state, recorded as reached from it |
| `Pathfinder.SearchStep` | src/main.py:200-240 | one pop takes the least live entry, whose state has the least cost plus heuristic among all known unexplored states. On a goal it returns that state and leaves maps and explored set as they were. Otherwise it keeps the loop invariant (including every live entry keyed by cost plus heuristic) while shrinking the unexplored universe or the heap, adds at most the popped state to the explored set, raises no known cost, and changes only valid, unexplored, improving steps from the popped state, recorded as reached from it |
| `Pathfinder.ClosedHoldsWalk` | src/main.py:209-222 | once the explored set is closed under valid steps and holds every start state, every walk from a start state stays inside it |
| `Pathfinder.ExhaustedMeansNoRoute` | src/main.py:200-243 | an exhausted frontier with no explored goal state means no walk from a start state reaches the goal |
| `Pathfinder.Search` | src/main.py:198-243 | the loop ends with a goal state whose predecessor chain is well founded, or with a proof that no route exists |
| `Pathfinder.ReconstructPath` | src/main.py:253-259 | the reconstructed path ends at the final state and starts at a state without a predecessor. Each state in it was reached from the one before |
| `Pathfinder.ChainFacts` | src/main.py:226-235 | along a predecessor chain the recorded cost is the sum of the step costs and the recorded transfer count is the number of line changes |
| `Pathfinder.BuildRoute` | src/main.py:245-251 | the route is a walk from a start state to the goal. Its stations, itinerary, distance and transfer count are those of that walk |
| `Pathfinder.FindPath` | src/main.py:177-251 | an unknown station yields nothing. A returned route is a valid walk from start to goal, ending on the requested line if one is given, with its cost and transfers. Nothing returned for known stations means no such walk exists |

## Left out

- The web layer is not part of this model: the routes, the JSON loaders and station search.
- The haversine great-circle distance is not modelled: it is the parameter `dist`. The heuristic itself is modelled as in the source: `Pathfinder.Heuristic` is `dist` between the station's coordinate and the goal's.
- Floating point is not modelled: costs and coordinates are exact reals.
- The transfer rules are not read from disk: `CreateStationGraph` takes them as a parameter.
- The itinerary text is not modelled: HTML and emoji markup are replaced by the `Detail` datatype, which keeps the stations and lines each entry names.
- Records with a missing name or line, or an explicit null order hint, are not modelled: the hint is `Option<int>`, and `None` stands for an absent key (default 9999).
- The heap layout is not modelled: the queue is a sequence of entries, and a pop takes the live entry with the least key. `entry_finder` is implied by the live entries.
- `Frontier.Get`: the `KeyError` on an empty queue is modelled as returning `None`; the search never calls it on an empty queue.
- The reset and reuse of the pathfinder's instance fields are not modelled: each search starts from fresh maps.
- `Pathfinder.SeedFrontier`: the iteration order of a station's line set is an arbitrary choice, so tie-breaking among start states is not pinned down.
- `Pathfinder.FindPath`: does not claim that the route is the cheapest one; optimality of A\* with this heuristic is not proved.
- `Pathfinder.FindPath`: the result is `Option<Route>` rather than four `None` values. `Route` also carries the (station, line) path.
- `Pathfinder.ReconstructPath`: the path is built by prepending rather than by appending and reversing; the result is the same.

=== FILE: frontier.dfy ===
/** The search frontier: a min-priority queue with lazy deletion. Re-inserting
    an item marks its old entry as removed; ties on priority are broken by an
    insertion counter. */
module Frontier {
  import opened Network

  /** A queue entry. `item` is `None` once the entry has been marked removed. */
  datatype Entry = Entry(priority: real, count: nat, item: Option<State>)

  /** The entries still held (live or removed) and the next insertion number. */
  datatype PQueue = PQueue(entries: seq<Entry>, counter: nat)

  function EmptyQueue(): (q: PQueue)
    ensures Valid(q) && Live(q) == {}
  {
    PQueue([], 0)
  }

  /** Entries compare by priority, then by insertion number. */
  predicate KeyLess(a: Entry, b: Entry) {
    a.priority < b.priority || (a.priority == b.priority && a.count < b.count)
  }

  /** Insertion numbers are below the counter and unique, and each item has
      at most one live entry. */
  ghost predicate Valid(q: PQueue) {
    && (forall e :: e in q.entries ==> e.count < q.counter)
    && (forall e, f :: e in q.entries && f in q.entries && e.count == f.count ==> e == f)
    && (forall e, f :: e in q.entries && f in q.entries && e.item.Some? && e.item == f.item ==> e == f)
  }

  /** The items that still have a live entry. */
  ghost function Live(q: PQueue): set<State> {
    set e | e in q.entries && e.item.Some? :: e.item.value
  }

  /** `e` is the live entry with the least (priority, count). */
  ghost predicate IsLeast(q: PQueue, e: Entry) {
    && e in q.entries && e.item.Some?
    && forall f :: f in q.entries && f.item.Some? ==> e == f || KeyLess(e, f)
  }

  predicate IsEmpty(q: PQueue)
    ensures IsEmpty(q) <==> Live(q) == {}
  {
    EmptyMeansNoLive(q);
    forall i :: 0 <= i < |q.entries| ==> q.entries[i].item.None?
  }

  /** A live entry at some position is a live item, and a live item has an
      entry at some position. */
  lemma EmptyMeansNoLive(q: PQueue)
    ensures (forall i :: 0 <= i < |q.entries| ==> q.entries[i].item.None?) <==> Live(q) == {}
  {
    if i :| 0 <= i < |q.entries| && q.entries[i].item.Some? {
      assert q.entries[i].item.value in Live(q);
    }
  }

  /** Marks every live entry of `x` as removed: no entry is left for `x`,
      every entry of another item stays, every entry left that still has an
      item was already there, and each position keeps its key. */
  function MarkRemoved(s: seq<Entry>, x: State): (r: seq<Entry>)
    ensures |r| == |s|
    ensures forall e :: e in r ==> e.item != Some(x)
    ensures forall e :: e in s && e.item != Some(x) ==> e in r
    ensures forall e :: e in r && e.item.Some? ==> e in s
    ensures forall i :: 0 <= i < |s| ==> r[i].priority == s[i].priority && r[i].count == s[i].count
  {
    var r := seq(|s|, i requires 0 <= i < |s| => if s[i].item == Some(x) then s[i].(item := None) else s[i]);
    assert forall e :: e in s && e.item != Some(x) ==> e in r by {
      forall e | e in s && e.item != Some(x) ensures e in r {
        var i :| 0 <= i < |s| && s[i] == e;
        assert r[i] == e;
      }
    }
    r
  }

  /** An entry of the marked sequence is the entry at the same position of
      the original, with its item cleared when it was `x`. */
  lemma MarkedAt(s: seq<Entry>, x: State, e: Entry) returns (i: nat)
    requires e in MarkRemoved(s, x)
    ensures i < |s| && MarkRemoved(s, x)[i] == e && s[i] in s
    ensures e.count == s[i].count && e.priority == s[i].priority
    ensures e.item == (if s[i].item == Some(x) then None else s[i].item)
  {
    i :| 0 <= i < |s| && MarkRemoved(s, x)[i] == e;
  }

  /** Marking keeps insertion numbers below the counter and unique. */
  lemma MarkRemovedCounts(q: PQueue, x: State)
    requires Valid(q)
    ensures var marked := MarkRemoved(q.entries, x);
            && (forall e :: e in marked ==> e.count < q.counter && e.item != Some(x))
            && (forall e, f :: e in marked && f in marked && e.count == f.count ==> e == f)
  {
    var marked := MarkRemoved(q.entries, x);
    forall e | e in marked ensures e.count < q.counter && e.item != Some(x) {
      var i := MarkedAt(q.entries, x, e);
    }
    forall e, f | e in marked && f in marked && e.count == f.count ensures e == f {
      var i := MarkedAt(q.entries, x, e);
      var j := MarkedAt(q.entries, x, f);
      assert q.entries[i] == q.entries[j];
    }
  }

  /** Marking leaves at most one live entry per item, all of them original
      entries, and keeps every live entry of an item other than `x`. */
  lemma MarkRemovedItems(q: PQueue, x: State)
    requires Valid(q)
    ensures var marked := MarkRemoved(q.entries, x);
            && (forall e, f :: e in marked && f in marked && e.item.Some? && e.item == f.item ==> e == f)
            && (forall e :: e in marked && e.item.Some? ==> e in q.entries)
            && (forall e :: e in q.entries && e.item.Some? && e.item != Some(x) ==> e in marked)
  {
    var marked := MarkRemoved(q.entries, x);
    forall e | e in marked && e.item.Some? ensures e in q.entries {
      var i := MarkedAt(q.entries, x, e);
    }
    forall e, f | e in marked && f in marked && e.item.Some? && e.item == f.item ensures e == f {
      var i := MarkedAt(q.entries, x, e);
      var j := MarkedAt(q.entries, x, f);
      assert q.entries[i] == q.entries[j];
    }
    forall e | e in q.entries && e.item.Some? && e.item != Some(x) ensures e in marked {
      var i :| 0 <= i < |q.entries| && q.entries[i] == e;
      assert marked[i] == e;
    }
  }

  /** Inserts `x` with priority `p`, first removing its previous entry if any. */
  function Put(q: PQueue, x: State, p: real): (r: PQueue)
    requires Valid(q)
    ensures Valid(r)
    ensures r.counter == q.counter + 1
    ensures |r.entries| == |q.entries| + 1
    ensures Live(r) == Live(q) + {x}
    ensures Entry(p, q.counter, Some(x)) in r.entries
    ensures forall e :: e in r.entries && e.item == Some(x) ==> e == Entry(p, q.counter, Some(x))
    ensures forall e :: e in q.entries && e.item.Some? && e.item != Some(x) ==> e in r.entries
    ensures forall e :: e in r.entries && e.item.Some? && e.item != Some(x) ==> e in q.entries
  {
    var r := PQueue(MarkRemoved(q.entries, x) + [Entry(p, q.counter, Some(x))], q.counter + 1);
    MarkRemovedItems(q, x);
    PutValid(q, x, p);
    PutLive(q, x, p);
    r
  }

  /** A put into a queue whose entries all carry priority `p`, at priority
      `p`, leaves every entry at priority `p`. */
  lemma PutUniformPriority(q: PQueue, x: State, p: real)
    requires Valid(q) && forall e :: e in q.entries ==> e.priority == p
    ensures forall e :: e in Put(q, x, p).entries ==> e.priority == p
  {
    var marked := MarkRemoved(q.entries, x);
    assert Put(q, x, p).entries == marked + [Entry(p, q.counter, Some(x))];
    forall e | e in marked ensures e.priority == p {
      var i :| 0 <= i < |marked| && marked[i] == e;
      assert q.entries[i] in q.entries;
    }
  }

  /** A put keeps insertion numbers below the counter and unique, and each
      item with at most one live entry. */
  lemma PutValid(q: PQueue, x: State, p: real)
    requires Valid(q)
    ensures Valid(PQueue(MarkRemoved(q.entries, x) + [Entry(p, q.counter, Some(x))], q.counter + 1))
  {
    var marked := MarkRemoved(q.entries, x);
    var added := Entry(p, q.counter, Some(x));
    MarkRemovedCounts(q, x);
    MarkRemovedItems(q, x);
    assert forall e :: e in marked + [added] <==> e in marked || e == added;
  }

  /** The live items after a put are the old ones plus the item put. */
  lemma PutLive(q: PQueue, x: State, p: real)
    requires Valid(q)
    ensures Live(PQueue(MarkRemoved(q.entries, x) + [Entry(p, q.counter, Some(x))], q.counter + 1))
            == Live(q) + {x}
  {
    var added := Entry(p, q.counter, Some(x));
    var r := PQueue(MarkRemoved(q.entries, x) + [added], q.counter + 1);
    MarkRemovedItems(q, x);
    MarkRemovedCounts(q, x);
    forall y ensures y in Live(r) <==> y in Live(q) + {x} {
      if y != x {
        if y in Live(q) {
          var e :| e in q.entries && e.item == Some(y);
          assert e in r.entries;
        }
        if y in Live(r) {
          var e :| e in r.entries && e.item == Some(y);
        }
      } else {
        assert added in r.entries;
      }
    }
  }

  /** Keeps the entries whose key is greater than that of `m`. */
  function KeepAfter(s: seq<Entry>, m: Entry): (r: seq<Entry>)
    ensures forall e :: e in r <==> e in s && KeyLess(m, e)
    ensures (exists e :: e in s && !KeyLess(m, e)) ==> |r| < |s|
    ensures |r| <= |s|
  {
    if s == [] then []
    else
      var rest := KeepAfter(s[1..], m);
      assert s == [s[0]] + s[1..];
      if KeyLess(m, s[0]) then [s[0]] + rest else rest
  }

  /** Pops the live item with the least (priority, count), discarding the
      removed entries in front of it; `None` when no live entry remains, in
      which case every entry has been discarded. */
  method Get(q: PQueue) returns (item: Option<State>, r: PQueue)
    requires Valid(q)
    ensures Valid(r)
    ensures r.counter == q.counter
    ensures item.None? <==> Live(q) == {}
    ensures item.None? ==> r.entries == []
    ensures item.Some? ==> exists e :: IsLeast(q, e) && e.item == item
    ensures item.Some? ==> item.value in Live(q)
    ensures item.Some? ==> Live(r) == Live(q) - {item.value}
    ensures item.Some? ==> |r.entries| < |q.entries|
    ensures forall e :: e in r.entries ==> e in q.entries
    ensures item.Some? ==> forall e :: e in q.entries && e.item.Some? && e.item != item ==> e in r.entries
  {
    var best: Option<nat> := None;
    for i := 0 to |q.entries|
      invariant best.Some? ==> best.value < i && q.entries[best.value].item.Some?
      invariant best.Some? ==> forall j :: 0 <= j < i && q.entries[j].item.Some? ==>
                                 q.entries[j] == q.entries[best.value] || KeyLess(q.entries[best.value], q.entries[j])
      invariant best.None? ==> forall j :: 0 <= j < i ==> q.entries[j].item.None?
    {
      if q.entries[i].item.Some? {
        if best.None? || KeyLess(q.entries[i], q.entries[best.value]) {
          best := Some(i);
        }
      }
    }
    if best.None? {
      forall e | e in q.entries ensures e.item.None? {
        var k :| 0 <= k < |q.entries| && q.entries[k] == e;
      }
      item, r := None, PQueue([], q.counter);
    } else {
      var m := q.entries[best.value];
      assert IsLeast(q, m) by {
        forall f | f in q.entries && f.item.Some? ensures m == f || KeyLess(m, f) {
          var k :| 0 <= k < |q.entries| && q.entries[k] == f;
        }
      }
      item, r := m.item, PQueue(KeepAfter(q.entries, m), q.counter);
      assert !KeyLess(m, m);
      assert m.item.value in Live(q);
      assert Live(r) == Live(q) - {m.item.value} by {
        forall y ensures y in Live(r) <==> y in Live(q) - {m.item.value} {
          if y in Live(q) && y != m.item.value {
            var e :| e in q.entries && e.item == Some(y);
            assert e in r.entries;
          }
          if y in Live(r) {
            var e :| e in r.entries && e.item == Some(y);
            assert e != m;
          }
        }
      }
    }
  }

  /** Putting the same item twice leaves one live entry for it, carrying the
      later priority (decrease-key by lazy deletion). */
  lemma PutTwiceKeepsLatest(q: PQueue, x: State, p1: real, p2: real)
    requires Valid(q)
    ensures var q2 := Put(Put(q, x, p1), x, p2);
            forall e :: e in q2.entries && e.item == Some(x) ==> e.priority == p2
  {
  }

  /** Two distinct items put with equal priority come out in insertion
      order: every live entry of the first one put sorts before every live
      entry of the second. */
  lemma EqualPriorityFirstIn(q: PQueue, x: State, y: State, p: real)
    requires Valid(q) && x != y
    ensures var q2 := Put(Put(q, x, p), y, p);
            forall e, f :: e in q2.entries && f in q2.entries && e.item == Some(x) && f.item == Some(y) ==>
              KeyLess(e, f)
  {
    var q1 := Put(q, x, p);
    var q2 := Put(q1, y, p);
    forall e, f | e in q2.entries && f in q2.entries && e.item == Some(x) && f.item == Some(y)
      ensures KeyLess(e, f)
    {
      assert e in q1.entries;
      assert e == Entry(p, q.counter, Some(x));
      assert f == Entry(p, q1.counter, Some(y));
    }
  }

  /** The least live entry is unique, so `Get` is deterministic. */
  lemma LeastIsUnique(q: PQueue, e: Entry, f: Entry)
    requires Valid(q) && IsLeast(q, e) && IsLeast(q, f)
    ensures e == f
  {
  }
}

=== FILE: graph_builder.dfy ===
/** Construction of the station graph from station records and transfer rules. */
module GraphBuilder {
  import opened Network
  import opened OrderSort

  /** Some record names station `n`. */
  ghost predicate HasStation(fs: seq<Feature>, n: Name) {
    exists i :: 0 <= i < |fs| && fs[i].station == n
  }

  /** Some record is on line `l`. */
  ghost predicate HasLine(fs: seq<Feature>, l: Name) {
    exists i :: 0 <= i < |fs| && fs[i].line == l
  }

  /** Some record puts station `n` on line `l`. */
  ghost predicate Serves(fs: seq<Feature>, n: Name, l: Name) {
    exists i :: 0 <= i < |fs| && fs[i].station == n && fs[i].line == l
  }

  /** Record `i` is the first one naming station `n`. */
  ghost predicate FirstRecord(fs: seq<Feature>, n: Name, i: int) {
    0 <= i < |fs| && fs[i].station == n && forall j :: 0 <= j < i ==> fs[j].station != n
  }

  lemma PrefixFacts(fs: seq<Feature>, n: Name, l: Name)
    requires |fs| > 0
    ensures var k := |fs| - 1;
            && (HasStation(fs, n) <==> HasStation(fs[..k], n) || fs[k].station == n)
            && (HasLine(fs, l) <==> HasLine(fs[..k], l) || fs[k].line == l)
            && (Serves(fs, n, l) <==> Serves(fs[..k], n, l) || (fs[k].station == n && fs[k].line == l))
  {
    var k := |fs| - 1;
    assert forall i :: 0 <= i < k ==> fs[..k][i] == fs[i];
    if HasStation(fs, n) {
      var i :| 0 <= i < |fs| && fs[i].station == n;
      if i < k { assert fs[..k][i].station == n; }
    }
    if HasLine(fs, l) {
      var i :| 0 <= i < |fs| && fs[i].line == l;
      if i < k { assert fs[..k][i].line == l; }
    }
    if Serves(fs, n, l) {
      var i :| 0 <= i < |fs| && fs[i].station == n && fs[i].line == l;
      if i < k { assert fs[..k][i].station == n && fs[..k][i].line == l; }
    }
  }

  function OrderOf(f: Feature): int {
    if f.order.Some? then f.order.value else DefaultOrder
  }

  /** Adds one record: a new station gets its coordinate, its line and no
      connections; a known one only gains the line. */
  function AddFeature(g: Graph, f: Feature): Graph {
    if f.station !in g then g[f.station := Station(f.coords, {f.line}, [])]
    else g[f.station := g[f.station].(lines := g[f.station].lines + {f.line})]
  }

  /** The first pass over the records. */
  function AddStations(fs: seq<Feature>): Graph
    decreases |fs|
  {
    if fs == [] then map[] else AddFeature(AddStations(fs[..|fs| - 1]), fs[|fs| - 1])
  }

  /** The first pass makes one node per station name, merges its lines, takes
      its coordinate from its first record and gives it no connections. */
  lemma {:induction false} AddStationsSpec(fs: seq<Feature>, n: Name, l: Name)
    ensures n in AddStations(fs) <==> HasStation(fs, n)
    ensures n in AddStations(fs) ==>
              && AddStations(fs)[n].connections == []
              && (l in AddStations(fs)[n].lines <==> Serves(fs, n, l))
              && exists i :: FirstRecord(fs, n, i) && AddStations(fs)[n].coords == fs[i].coords
    decreases |fs|
  {
    if fs != [] {
      var k := |fs| - 1;
      var prev := AddStations(fs[..k]);
      AddStationsSpec(fs[..k], n, l);
      PrefixFacts(fs, n, l);
      if n in AddStations(fs) {
        if n in prev {
          var i :| FirstRecord(fs[..k], n, i) && prev[n].coords == fs[..k][i].coords;
          assert FirstRecord(fs, n, i);
        } else {
          forall j | 0 <= j < k ensures fs[j].station != n {
            assert fs[..k][j] == fs[j];
            assert !HasStation(fs[..k], n);
          }
          assert FirstRecord(fs, n, k);
        }
      }
    }
  }

  /** The (station, order hint) list of line `l`, in record order. */
  function Stops(fs: seq<Feature>, l: Name): seq<Stop>
    decreases |fs|
  {
    if fs == [] then []
    else
      var k := |fs| - 1;
      Stops(fs[..k], l) + (if fs[k].line == l then [Stop(fs[k].station, OrderOf(fs[k]))] else [])
  }

  /** Every stop of line `l` is a station that some record puts on `l`. */
  lemma {:induction false} StopsServe(fs: seq<Feature>, l: Name, x: Stop)
    requires x in Stops(fs, l)
    ensures Serves(fs, x.station, l)
    decreases |fs|
  {
    var k := |fs| - 1;
    PrefixFacts(fs, x.station, l);
    if x !in Stops(fs[..k], l) {
      assert fs[k].station == x.station && fs[k].line == l;
    } else {
      StopsServe(fs[..k], l, x);
    }
  }

  /** The stops of line `l` after the stable sort by order hint. */
  function SortedStops(fs: seq<Feature>, l: Name): seq<Stop> {
    Sort(Stops(fs, l))
  }

  lemma SortedStopsServe(fs: seq<Feature>, l: Name, x: Stop)
    requires x in SortedStops(fs, l)
    ensures Serves(fs, x.station, l) && HasStation(fs, x.station) && HasLine(fs, l)
  {
    SortMembers(Stops(fs, l), x);
    StopsServe(fs, l, x);
    var i :| 0 <= i < |fs| && fs[i].station == x.station && fs[i].line == l;
  }

  /** Line `a` first appears in the records before line `b` does. */
  ghost predicate FirstBefore(fs: seq<Feature>, a: Name, b: Name) {
    exists k :: 0 <= k < |fs| && fs[k].line == a && forall k' :: 0 <= k' <= k ==> fs[k'].line != b
  }

  /** An order of first appearance in a prefix holds in the whole sequence. */
  lemma FirstBeforeExtend(fs: seq<Feature>, k: nat, a: Name, b: Name)
    requires k <= |fs| && FirstBefore(fs[..k], a, b)
    ensures FirstBefore(fs, a, b)
  {
    var i :| 0 <= i < k && fs[..k][i].line == a && forall k' :: 0 <= k' <= i ==> fs[..k][k'].line != b;
    forall k' | 0 <= k' <= i ensures fs[k'].line != b {
      assert fs[..k][k'] == fs[k'];
    }
  }

  /** A line already present in a prefix first appears before a line the
      prefix does not hold. */
  lemma FirstBeforeNew(fs: seq<Feature>, k: nat, a: Name, b: Name)
    requires k <= |fs| && HasLine(fs[..k], a) && !HasLine(fs[..k], b)
    ensures FirstBefore(fs, a, b)
  {
    var i :| 0 <= i < k && fs[..k][i].line == a;
    forall k' | 0 <= k' <= i ensures fs[k'].line != b {
      assert fs[..k][k'] == fs[k'];
    }
  }

  /** The distinct line names of the records, in order of first appearance. */
  function LineOrder(fs: seq<Feature>): (r: seq<Name>)
    ensures forall l :: l in r <==> HasLine(fs, l)
    ensures forall i, j :: 0 <= i < j < |r| ==> r[i] != r[j]
    ensures forall i, j :: 0 <= i < j < |r| ==> FirstBefore(fs, r[i], r[j])
    decreases |fs|
  {
    if fs == [] then []
    else
      var k := |fs| - 1;
      var prev := LineOrder(fs[..k]);
      assert forall l :: HasLine(fs, l) <==> HasLine(fs[..k], l) || fs[k].line == l by {
        forall l ensures HasLine(fs, l) <==> HasLine(fs[..k], l) || fs[k].line == l {
          PrefixFacts(fs, fs[k].station, l);
        }
      }
      assert forall i, j :: 0 <= i < j < |prev| ==> FirstBefore(fs, prev[i], prev[j]) by {
        forall i, j | 0 <= i < j < |prev| ensures FirstBefore(fs, prev[i], prev[j]) {
          FirstBeforeExtend(fs, k, prev[i], prev[j]);
        }
      }
      if fs[k].line in prev then prev
      else
        assert forall i :: 0 <= i < |prev| ==> FirstBefore(fs, prev[i], fs[k].line) by {
          forall i | 0 <= i < |prev| ensures FirstBefore(fs, prev[i], fs[k].line) {
            assert prev[i] in prev;
            FirstBeforeNew(fs, k, prev[i], fs[k].line);
          }
        }
        prev + [fs[k].line]
  }

  /** Stations `a` and `b` are the stops at positions `i` and `i + 1`, in
      either order. */
  ghost predicate AdjacentAt(stops: seq<Stop>, i: int, a: Name, b: Name) {
    && 0 <= i < |stops| - 1
    && ((stops[i].station == a && stops[i + 1].station == b) ||
        (stops[i + 1].station == a && stops[i].station == b))
  }

  /** Stations `a` and `b` are neighbours somewhere in the stop list. */
  ghost predicate Adjacent(stops: seq<Stop>, a: Name, b: Name) {
    exists i :: AdjacentAt(stops, i, a, b)
  }

  /** Appends connection `c` to station `a`. */
  function AddEdge(g: Graph, a: Name, c: State): (r: Graph)
    requires a in g
    ensures r.Keys == g.Keys
  {
    g[a := g[a].(connections := g[a].connections + [c])]
  }

  lemma AdjacentUnfold(stops: seq<Stop>, a: Name, b: Name)
    requires |stops| >= 2
    ensures Adjacent(stops, a, b) <==> AdjacentAt(stops, 0, a, b) || Adjacent(stops[1..], a, b)
  {
    if Adjacent(stops, a, b) {
      var i :| AdjacentAt(stops, i, a, b);
      if i > 0 {
        assert stops[1..][i - 1] == stops[i] && stops[1..][i] == stops[i + 1];
        assert AdjacentAt(stops[1..], i - 1, a, b);
      }
    }
    if Adjacent(stops[1..], a, b) {
      var i :| AdjacentAt(stops[1..], i, a, b);
      assert stops[i + 1] == stops[1..][i] && stops[i + 2] == stops[1..][i + 1];
      assert AdjacentAt(stops, i + 1, a, b);
    }
  }

  /** The connections the line pass gives station `n`, in the order it
      appends them: for each adjacent pair of stops, the link out of the
      first stop of the pair, then the link out of the second. */
  function NeighboursOn(stops: seq<Stop>, l: Name, n: Name): seq<State>
    decreases |stops|
  {
    if |stops| < 2 then []
    else
      (if stops[0].station == n then [State(stops[1].station, l)] else [])
      + (if stops[1].station == n then [State(stops[0].station, l)] else [])
      + NeighboursOn(stops[1..], l, n)
  }

  /** `NeighboursOn` lists exactly the neighbours of `n` in the stop list. */
  lemma {:induction false} NeighboursOnMembers(stops: seq<Stop>, l: Name, n: Name, c: State)
    ensures c in NeighboursOn(stops, l, n) <==> c.line == l && Adjacent(stops, n, c.station)
    decreases |stops|
  {
    if |stops| >= 2 {
      NeighboursOnMembers(stops[1..], l, n, c);
      AdjacentUnfold(stops, n, c.station);
    }
  }

  /** Links every adjacent pair of `stops` in both directions, tagged `l`. */
  function AddLineEdges(g: Graph, l: Name, stops: seq<Stop>): (r: Graph)
    requires forall x :: x in stops ==> x.station in g
    ensures r.Keys == g.Keys
    decreases |stops|
  {
    if |stops| < 2 then g
    else
      var a := stops[0].station;
      var b := stops[1].station;
      assert stops[0] in stops && stops[1] in stops;
      AddLineEdges(AddEdge(AddEdge(g, a, State(b, l)), b, State(a, l)), l, stops[1..])
  }

  lemma ConcatAssoc(a: seq<State>, b: seq<State>, c: seq<State>)
    ensures a + b + c == a + (b + c)
  {
  }

  /** The first pair of stops: the links it appends to `n`. */
  lemma AddLineEdgesHead(g: Graph, l: Name, stops: seq<Stop>, n: Name)
    requires forall x :: x in stops ==> x.station in g
    requires n in g && |stops| >= 2
    ensures var a, b := stops[0].station, stops[1].station;
            var g1 := AddEdge(AddEdge(g, a, State(b, l)), b, State(a, l));
            var here := (if a == n then [State(b, l)] else []) + (if b == n then [State(a, l)] else []);
            && (forall x :: x in stops[1..] ==> x.station in g1)
            && AddLineEdges(g, l, stops) == AddLineEdges(g1, l, stops[1..])
            && g1[n].coords == g[n].coords && g1[n].lines == g[n].lines
            && g1[n].connections == g[n].connections + here
            && NeighboursOn(stops, l, n) == here + NeighboursOn(stops[1..], l, n)
  {
    assert stops[0] in stops && stops[1] in stops;
  }

  /** The line pass keeps coordinates and lines, and appends to `n` the
      connections to its neighbours in `stops`, tagged `l`, in stop order. */
  lemma {:induction false} AddLineEdgesSeq(g: Graph, l: Name, stops: seq<Stop>, n: Name)
    requires forall x :: x in stops ==> x.station in g
    requires n in g
    ensures var r := AddLineEdges(g, l, stops);
            && r[n].coords == g[n].coords && r[n].lines == g[n].lines
            && r[n].connections == g[n].connections + NeighboursOn(stops, l, n)
    decreases |stops|
  {
    if |stops| >= 2 {
      AddLineEdgesHead(g, l, stops, n);
      var a := stops[0].station;
      var b := stops[1].station;
      var g1 := AddEdge(AddEdge(g, a, State(b, l)), b, State(a, l));
      var here := (if a == n then [State(b, l)] else []) + (if b == n then [State(a, l)] else []);
      AddLineEdgesSeq(g1, l, stops[1..], n);
      ConcatAssoc(g[n].connections, here, NeighboursOn(stops[1..], l, n));
    }
  }

  /** The line pass adds to `n` exactly the connections to its neighbours in
      `stops`, tagged `l`, appended in stop order. */
  lemma AddLineEdgesSpec(g: Graph, l: Name, stops: seq<Stop>, n: Name, c: State)
    requires forall x :: x in stops ==> x.station in g
    requires n in g
    ensures var r := AddLineEdges(g, l, stops);
            && r[n].coords == g[n].coords && r[n].lines == g[n].lines
            && r[n].connections == g[n].connections + NeighboursOn(stops, l, n)
            && (c in r[n].connections <==> c in g[n].connections || (c.line == l && Adjacent(stops, n, c.station)))
  {
    AddLineEdgesSeq(g, l, stops, n);
    NeighboursOnMembers(stops, l, n, c);
  }

  /** A connection the line pass creates: `c` is a neighbour of `n` on line `c.line`. */
  ghost predicate LineEdge(fs: seq<Feature>, n: Name, c: State) {
    Adjacent(SortedStops(fs, c.line), n, c.station)
  }

  lemma SortedStopsInGraph(g: Graph, fs: seq<Feature>, l: Name)
    requires forall n :: HasStation(fs, n) ==> n in g
    ensures forall x :: x in SortedStops(fs, l) ==> x.station in g
  {
    forall x | x in SortedStops(fs, l) ensures x.station in g {
      SortedStopsServe(fs, l, x);
    }
  }

  /** The second pass: for each line in `lines`, link neighbours of its sorted stops. */
  function AddAllLines(g: Graph, fs: seq<Feature>, lines: seq<Name>): (r: Graph)
    requires forall n :: HasStation(fs, n) ==> n in g
    ensures r.Keys == g.Keys
    decreases |lines|
  {
    if lines == [] then g
    else
      SortedStopsInGraph(g, fs, lines[0]);
      AddAllLines(AddLineEdges(g, lines[0], SortedStops(fs, lines[0])), fs, lines[1..])
  }

  /** The connections the line pass gives station `n` over `lines`, one
      line after another. */
  function LineConns(fs: seq<Feature>, lines: seq<Name>, n: Name): seq<State>
    decreases |lines|
  {
    if lines == [] then []
    else NeighboursOn(SortedStops(fs, lines[0]), lines[0], n) + LineConns(fs, lines[1..], n)
  }

  /** `LineConns` lists exactly the line links of `n` on the lines given. */
  lemma {:induction false} LineConnsMembers(fs: seq<Feature>, lines: seq<Name>, n: Name, c: State)
    ensures c in LineConns(fs, lines, n) <==> c.line in lines && LineEdge(fs, n, c)
    decreases |lines|
  {
    if lines != [] {
      NeighboursOnMembers(SortedStops(fs, lines[0]), lines[0], n, c);
      LineConnsMembers(fs, lines[1..], n, c);
      assert c.line in lines <==> c.line == lines[0] || c.line in lines[1..];
    }
  }

  /** One line of the line pass: the station facts it keeps and the
      connections it appends to `n`. */
  lemma AddAllLinesHead(g: Graph, fs: seq<Feature>, lines: seq<Name>, n: Name)
    requires forall n :: HasStation(fs, n) ==> n in g
    requires n in g && lines != []
    ensures forall x :: x in SortedStops(fs, lines[0]) ==> x.station in g
    ensures var g1 := AddLineEdges(g, lines[0], SortedStops(fs, lines[0]));
            && AddAllLines(g, fs, lines) == AddAllLines(g1, fs, lines[1..])
            && g1.Keys == g.Keys
            && g1[n].coords == g[n].coords && g1[n].lines == g[n].lines
            && g1[n].connections == g[n].connections + NeighboursOn(SortedStops(fs, lines[0]), lines[0], n)
  {
    SortedStopsInGraph(g, fs, lines[0]);
    AddLineEdgesSeq(g, lines[0], SortedStops(fs, lines[0]), n);
  }

  /** The line pass appends to `n` its neighbours on each line of `lines`, in
      line order, and keeps coordinates and lines. */
  lemma {:induction false} AddAllLinesSeq(g: Graph, fs: seq<Feature>, lines: seq<Name>, n: Name)
    requires forall n :: HasStation(fs, n) ==> n in g
    requires n in g
    ensures var r := AddAllLines(g, fs, lines);
            && r[n].coords == g[n].coords && r[n].lines == g[n].lines
            && r[n].connections == g[n].connections + LineConns(fs, lines, n)
    decreases |lines|
  {
    if lines != [] {
      AddAllLinesHead(g, fs, lines, n);
      var g1 := AddLineEdges(g, lines[0], SortedStops(fs, lines[0]));
      AddAllLinesSeq(g1, fs, lines[1..], n);
      var here, rest := NeighboursOn(SortedStops(fs, lines[0]), lines[0], n), LineConns(fs, lines[1..], n);
      ConcatAssoc(g[n].connections, here, rest);
    }
  }

  /** The line pass adds to `n` exactly its line neighbours on the lines
      given, appended line by line, and keeps coordinates and lines. */
  lemma AddAllLinesSpec(g: Graph, fs: seq<Feature>, lines: seq<Name>, n: Name, c: State)
    requires forall n :: HasStation(fs, n) ==> n in g
    requires n in g
    ensures var r := AddAllLines(g, fs, lines);
            && r[n].coords == g[n].coords && r[n].lines == g[n].lines
            && r[n].connections == g[n].connections + LineConns(fs, lines, n)
            && (c in r[n].connections <==> c in g[n].connections || (c.line in lines && LineEdge(fs, n, c)))
  {
    AddAllLinesSeq(g, fs, lines, n);
    LineConnsMembers(fs, lines, n, c);
  }

  /** A connection the rule pass creates: some rule whose two stations are
      both in `keys` links `n` to `c`, tagged with the line entered. */
  ghost predicate RuleEdge(rules: seq<TransferRule>, keys: set<Name>, n: Name, c: State) {
    exists i :: 0 <= i < |rules| && RuleLinks(rules[i], keys, n, c)
  }

  ghost predicate RuleLinks(rule: TransferRule, keys: set<Name>, n: Name, c: State) {
    && rule.stationA in keys && rule.stationB in keys
    && ((n == rule.stationA && c == State(rule.stationB, rule.lineB)) ||
        (n == rule.stationB && c == State(rule.stationA, rule.lineA)))
  }

  /** Adds the two connections of one rule when both of its stations are known. */
  function AddRule(g: Graph, rule: TransferRule): (r: Graph)
    ensures r.Keys == g.Keys
  {
    if rule.stationA in g && rule.stationB in g then
      AddEdge(AddEdge(g, rule.stationA, State(rule.stationB, rule.lineB)),
              rule.stationB, State(rule.stationA, rule.lineA))
    else g
  }

  /** The third pass, over the rules in order. */
  function AddRuleEdges(g: Graph, rules: seq<TransferRule>): (r: Graph)
    ensures r.Keys == g.Keys
    decreases |rules|
  {
    if rules == [] then g else AddRuleEdges(AddRule(g, rules[0]), rules[1..])
  }

  /** The connections rule `rule` gives station `n` when both of its
      stations are in `keys`, in the order the rule pass appends them. */
  function RuleConnsOf(rule: TransferRule, keys: set<Name>, n: Name): seq<State> {
    if rule.stationA in keys && rule.stationB in keys then
      (if rule.stationA == n then [State(rule.stationB, rule.lineB)] else [])
      + (if rule.stationB == n then [State(rule.stationA, rule.lineA)] else [])
    else []
  }

  /** The connections the rule pass gives station `n`, rule after rule. */
  function RuleConns(rules: seq<TransferRule>, keys: set<Name>, n: Name): seq<State>
    decreases |rules|
  {
    if rules == [] then [] else RuleConnsOf(rules[0], keys, n) + RuleConns(rules[1..], keys, n)
  }

  /** `RuleConns` lists exactly the rule links of `n`. */
  lemma {:induction false} RuleConnsMembers(rules: seq<TransferRule>, keys: set<Name>, n: Name, c: State)
    ensures c in RuleConns(rules, keys, n) <==> RuleEdge(rules, keys, n, c)
    decreases |rules|
  {
    if rules != [] {
      RuleConnsMembers(rules[1..], keys, n, c);
      assert c in RuleConnsOf(rules[0], keys, n) <==> RuleLinks(rules[0], keys, n, c);
      if RuleEdge(rules, keys, n, c) {
        var i :| 0 <= i < |rules| && RuleLinks(rules[i], keys, n, c);
        if i > 0 { assert rules[1..][i - 1] == rules[i]; }
      }
      if RuleEdge(rules[1..], keys, n, c) {
        var i :| 0 <= i < |rules| - 1 && RuleLinks(rules[1..][i], keys, n, c);
        assert rules[i + 1] == rules[1..][i];
      }
    }
  }

  /** One rule: the links it appends to `n`. */
  lemma AddRuleHead(g: Graph, rule: TransferRule, n: Name)
    requires n in g
    ensures var g1 := AddRule(g, rule);
            && g1[n].coords == g[n].coords && g1[n].lines == g[n].lines
            && g1[n].connections == g[n].connections + RuleConnsOf(rule, g.Keys, n)
  {
  }

  /** The rule pass appends to `n` its rule links, in rule order, and keeps
      coordinates and lines. */
  lemma {:induction false} AddRuleEdgesSeq(g: Graph, rules: seq<TransferRule>, n: Name)
    requires n in g
    ensures var r := AddRuleEdges(g, rules);
            && r[n].coords == g[n].coords && r[n].lines == g[n].lines
            && r[n].connections == g[n].connections + RuleConns(rules, g.Keys, n)
    decreases |rules|
  {
    if rules != [] {
      var g1 := AddRule(g, rules[0]);
      AddRuleHead(g, rules[0], n);
      AddRuleEdgesSeq(g1, rules[1..], n);
      ConcatAssoc(g[n].connections, RuleConnsOf(rules[0], g.Keys, n), RuleConns(rules[1..], g.Keys, n));
    }
  }

  /** The rule pass adds to `n` exactly the rule links whose two stations are
      both in the graph, appended rule by rule, and keeps coordinates and
      lines. */
  lemma AddRuleEdgesSpec(g: Graph, rules: seq<TransferRule>, n: Name, c: State)
    requires n in g
    ensures var r := AddRuleEdges(g, rules);
            && r[n].coords == g[n].coords && r[n].lines == g[n].lines
            && r[n].connections == g[n].connections + RuleConns(rules, g.Keys, n)
            && (c in r[n].connections <==> c in g[n].connections || RuleEdge(rules, g.Keys, n, c))
  {
    AddRuleEdgesSeq(g, rules, n);
    RuleConnsMembers(rules, g.Keys, n, c);
  }

  /** Builds the station graph; the transfer rules are a parameter. */
  function CreateStationGraph(fs: seq<Feature>, rules: seq<TransferRule>): Graph {
    var g0 := AddStations(fs);
    assert forall n :: HasStation(fs, n) ==> n in g0 by {
      forall n | HasStation(fs, n) ensures n in g0 { AddStationsSpec(fs, n, ""); }
    }
    AddRuleEdges(AddAllLines(g0, fs, LineOrder(fs)), rules)
  }

  /** The station pass covers every station named by a record. */
  lemma StationsCovered(fs: seq<Feature>)
    ensures forall n :: HasStation(fs, n) ==> n in AddStations(fs)
  {
    forall n | HasStation(fs, n) ensures n in AddStations(fs) { AddStationsSpec(fs, n, ""); }
  }

  /** The built graph has one node per station name of the records. */
  lemma CreateStationGraphKeys(fs: seq<Feature>, rules: seq<TransferRule>, n: Name)
    ensures n in CreateStationGraph(fs, rules) <==> HasStation(fs, n)
  {
    AddStationsSpec(fs, n, "");
    StationsCovered(fs);
  }

  /** In sequence, the connections of a station of the built graph are its
      line links, line by line in order of first appearance, followed by its
      rule links in rule order. */
  lemma CreateStationGraphConns(fs: seq<Feature>, rules: seq<TransferRule>, n: Name)
    requires n in CreateStationGraph(fs, rules)
    ensures var g := CreateStationGraph(fs, rules);
            g[n].connections == LineConns(fs, LineOrder(fs), n) + RuleConns(rules, g.Keys, n)
  {
    var g0 := AddStations(fs);
    StationsCovered(fs);
    AddStationsSpec(fs, n, "");
    assert g0[n].connections == [];
    var g1 := AddAllLines(g0, fs, LineOrder(fs));
    AddAllLinesSeq(g0, fs, LineOrder(fs), n);
    assert g1[n].connections == LineConns(fs, LineOrder(fs), n);
    AddRuleEdgesSeq(g1, rules, n);
    assert CreateStationGraph(fs, rules) == AddRuleEdges(g1, rules);
  }

  /** The connections of a station of the built graph are exactly its
      neighbours in each line's sorted stop list, tagged with that line, plus
      the rule links whose two stations are both in the graph. In sequence,
      they are the line links, line by line in order of first appearance,
      followed by the rule links in rule order. */
  lemma CreateStationGraphEdges(fs: seq<Feature>, rules: seq<TransferRule>, n: Name, c: State)
    requires n in CreateStationGraph(fs, rules)
    ensures var g := CreateStationGraph(fs, rules);
            c in g[n].connections <==> LineEdge(fs, n, c) || RuleEdge(rules, g.Keys, n, c)
    ensures var g := CreateStationGraph(fs, rules);
            g[n].connections == LineConns(fs, LineOrder(fs), n) + RuleConns(rules, g.Keys, n)
  {
    var g := CreateStationGraph(fs, rules);
    CreateStationGraphConns(fs, rules, n);
    LineConnsMembers(fs, LineOrder(fs), n, c);
    RuleConnsMembers(rules, g.Keys, n, c);
    if LineEdge(fs, n, c) {
      LineEdgeServesLine(fs, n, c);
    }
  }

  /** The lines of a station of the built graph are those of its records,
      and its coordinate is that of its first record. */
  lemma CreateStationGraphNodes(fs: seq<Feature>, rules: seq<TransferRule>, n: Name, l: Name)
    requires n in CreateStationGraph(fs, rules)
    ensures var g := CreateStationGraph(fs, rules);
            && (l in g[n].lines <==> Serves(fs, n, l))
            && (exists i :: FirstRecord(fs, n, i) && g[n].coords == fs[i].coords)
  {
    var g0 := AddStations(fs);
    StationsCovered(fs);
    AddStationsSpec(fs, n, l);
    var g1 := AddAllLines(g0, fs, LineOrder(fs));
    AddAllLinesSpec(g0, fs, LineOrder(fs), n, State(n, l));
    AddRuleEdgesSpec(g1, rules, n, State(n, l));
  }

  /** What the built graph holds for a station `n`: it is a key exactly when
      some record names it; its lines are those of its records and its
      coordinate that of its first record; its connections are exactly its
      neighbours in each line's sorted stop list, tagged with that line, plus
      the rule links whose two stations are both in the graph, appended line
      by line in order of first appearance and then rule by rule. */
  lemma CreateStationGraphSpec(fs: seq<Feature>, rules: seq<TransferRule>, n: Name, l: Name, c: State)
    ensures var g := CreateStationGraph(fs, rules);
            && (n in g <==> HasStation(fs, n))
            && (n in g ==>
                  && (l in g[n].lines <==> Serves(fs, n, l))
                  && (exists i :: FirstRecord(fs, n, i) && g[n].coords == fs[i].coords)
                  && (c in g[n].connections <==> LineEdge(fs, n, c) || RuleEdge(rules, g.Keys, n, c))
                  && g[n].connections == LineConns(fs, LineOrder(fs), n) + RuleConns(rules, g.Keys, n))
  {
    CreateStationGraphKeys(fs, rules, n);
    if n in CreateStationGraph(fs, rules) {
      CreateStationGraphNodes(fs, rules, n, l);
      CreateStationGraphEdges(fs, rules, n, c);
    }
  }

  /** A rule link leads to a station of the graph. */
  lemma RuleEdgeInKeys(rules: seq<TransferRule>, keys: set<Name>, n: Name, c: State)
    requires RuleEdge(rules, keys, n, c)
    ensures c.station in keys
  {
    var i :| 0 <= i < |rules| && RuleLinks(rules[i], keys, n, c);
  }

  /** Every connection of the built graph leads to a station of the graph. */
  lemma CreateStationGraphWellFormed(fs: seq<Feature>, rules: seq<TransferRule>)
    ensures WellFormed(CreateStationGraph(fs, rules))
  {
    var g := CreateStationGraph(fs, rules);
    forall n, c | n in g && c in g[n].connections ensures c.station in g {
      CreateStationGraphEdges(fs, rules, n, c);
      if LineEdge(fs, n, c) {
        LineEdgeServesLine(fs, n, c);
        CreateStationGraphKeys(fs, rules, c.station);
      } else {
        RuleEdgeInKeys(rules, g.Keys, n, c);
      }
    }
  }

  /** A line connection joins two stations that both serve that line. */
  lemma LineEdgeServesLine(fs: seq<Feature>, n: Name, c: State)
    requires LineEdge(fs, n, c)
    ensures Serves(fs, n, c.line) && Serves(fs, c.station, c.line)
    ensures HasStation(fs, n) && HasStation(fs, c.station)
  {
    var stops := SortedStops(fs, c.line);
    var i :| AdjacentAt(stops, i, n, c.station);
    var x, y := stops[i], stops[i + 1];
    assert x in stops && y in stops;
    SortedStopsServe(fs, c.line, x);
    SortedStopsServe(fs, c.line, y);
  }
}

=== FILE: itinerary.dfy ===
/** The itinerary built from a reconstructed (station, line) path. */
module Itinerary {
  import opened Network

  /** One line of the itinerary text. */
  datatype Detail =
    | Start(station: Name, line: Name)
    | TransferAt(station: Name)
    | From(line: Name)
    | To(line: Name)
    | Destination(station: Name, line: Name)

  /** True when the step into position `i` of the path changes line. */
  predicate ChangesAt(path: seq<State>, i: int)
    requires 0 < i < |path|
  {
    path[i - 1].line != path[i].line
  }

  /** The number of adjacent pairs of the path whose lines differ. */
  function LineChanges(path: seq<State>): nat
    decreases |path|
  {
    if |path| <= 1 then 0
    else LineChanges(path[..|path| - 1]) + (if ChangesAt(path, |path| - 1) then 1 else 0)
  }

  /** The three entries emitted where the line changes into position `i`. */
  function TransferBlock(path: seq<State>, i: int): seq<Detail>
    requires 0 < i < |path|
  {
    [TransferAt(path[i].station), From(path[i - 1].line), To(path[i].line)]
  }

  /** The entries between Start and Destination, one block per line change,
      in path order. */
  function TransferNotes(path: seq<State>): (r: seq<Detail>)
    ensures |r| == 3 * LineChanges(path)
    decreases |path|
  {
    if |path| <= 1 then []
    else
      var i := |path| - 1;
      var prefix := path[..i];
      assert forall j :: 0 < j < |prefix| ==> ChangesAt(prefix, j) == ChangesAt(path, j);
      TransferNotes(prefix) + (if ChangesAt(path, i) then TransferBlock(path, i) else [])
  }

  /** The itinerary: a Start entry for the first state, the transfer blocks,
      and a Destination entry for the last state. */
  function PathDetails(path: seq<State>): (r: seq<Detail>)
    requires |path| >= 1
    ensures |r| == 2 + 3 * LineChanges(path)
    ensures r[0] == Start(path[0].station, path[0].line)
    ensures r[|r| - 1] == Destination(path[|path| - 1].station, path[|path| - 1].line)
  {
    [Start(path[0].station, path[0].line)]
      + TransferNotes(path)
      + [Destination(path[|path| - 1].station, path[|path| - 1].line)]
  }

  /** The transfer notes of a path are those of its prefix followed by the
      block for its last step, if that step changes line. */
  lemma NotesUnfold(path: seq<State>)
    requires |path| > 1
    ensures TransferNotes(path) == TransferNotes(path[..|path| - 1])
              + (if ChangesAt(path, |path| - 1) then TransferBlock(path, |path| - 1) else [])
  {
  }

  lemma SliceLeft<T>(a: seq<T>, b: seq<T>, lo: nat, hi: nat)
    requires lo <= hi <= |a|
    ensures (a + b)[lo..hi] == a[lo..hi]
  {
  }

  lemma SliceRight<T>(a: seq<T>, b: seq<T>)
    ensures (a + b)[|a|..|a| + |b|] == b
  {
  }

  /** Where the path changes line into position `i`, and `k` changes happen
      before it, entries 3k .. 3k+2 of the transfer notes name the station
      of the change, the line left and the line entered. */
  lemma {:induction false} TransferNotesAt(path: seq<State>, i: nat)
    requires 0 < i < |path| && ChangesAt(path, i)
    ensures var k := LineChanges(path[..i]);
            3 * k + 3 <= |TransferNotes(path)|
            && TransferNotes(path)[3 * k .. 3 * k + 3] == TransferBlock(path, i)
    decreases |path|
  {
    var n := |path| - 1;
    var prefix := path[..n];
    var k := LineChanges(path[..i]);
    var tail := if ChangesAt(path, n) then TransferBlock(path, n) else [];
    NotesUnfold(path);
    if i == n {
      SliceRight(TransferNotes(prefix), tail);
    } else {
      assert prefix[..i] == path[..i];
      assert ChangesAt(prefix, i);
      TransferNotesAt(prefix, i);
      assert TransferBlock(prefix, i) == TransferBlock(path, i);
      SliceLeft(TransferNotes(prefix), tail, 3 * k, 3 * k + 3);
    }
  }

  /** The itinerary names a transfer station exactly where the line changes. */
  lemma {:induction false} TransferStationsExact(path: seq<State>, st: Name)
    requires |path| >= 1
    ensures TransferAt(st) in PathDetails(path)
            <==> exists i :: 0 < i < |path| && ChangesAt(path, i) && path[i].station == st
  {
    NotesTransferStations(path, st);
    assert PathDetails(path) == [Start(path[0].station, path[0].line)] + TransferNotes(path)
                                + [Destination(path[|path| - 1].station, path[|path| - 1].line)];
  }

  /** Some step into a position before `n` changes line at station `st`. */
  ghost predicate ChangeAtStationBefore(path: seq<State>, n: int, st: Name)
    requires n <= |path|
  {
    exists i :: 0 < i < n && ChangesAt(path, i) && path[i].station == st
  }

  /** A change before `n` is one in the prefix of length `n`. */
  lemma ChangeInPrefix(path: seq<State>, n: nat, st: Name)
    requires 0 < n <= |path|
    ensures ChangeAtStationBefore(path, n, st) <==> ChangeAtStationBefore(path[..n], n, st)
  {
    var prefix := path[..n];
    if ChangeAtStationBefore(path, n, st) {
      var i :| 0 < i < n && ChangesAt(path, i) && path[i].station == st;
      assert ChangesAt(prefix, i) && prefix[i].station == st;
    }
    if ChangeAtStationBefore(prefix, n, st) {
      var i :| 0 < i < n && ChangesAt(prefix, i) && prefix[i].station == st;
      assert ChangesAt(path, i) && path[i].station == st;
    }
  }

  /** A change before `n + 1` is one before `n` or the step into `n`. */
  lemma ChangeBeforeStep(path: seq<State>, n: nat, st: Name)
    requires 0 < n < |path|
    ensures ChangeAtStationBefore(path, n + 1, st)
            <==> ChangeAtStationBefore(path, n, st) || (ChangesAt(path, n) && path[n].station == st)
  {
  }

  lemma {:induction false} NotesTransferStations(path: seq<State>, st: Name)
    ensures TransferAt(st) in TransferNotes(path) <==> ChangeAtStationBefore(path, |path|, st)
    decreases |path|
  {
    if |path| > 1 {
      var n := |path| - 1;
      var prefix := path[..n];
      NotesTransferStations(prefix, st);
      NotesUnfold(path);
      ChangeInPrefix(path, n, st);
      ChangeBeforeStep(path, n, st);
    }
  }
}

=== FILE: network.dfy ===
/** Shared vocabulary of the route-search engine: station records, transfer
    rules, the station graph and the (station, line) search state. */
module Network {

  datatype Option<T> = None | Some(value: T)

  type Name = string

  /** A geographic position, (longitude, latitude) in degrees. */
  datatype Coord = Coord(lon: real, lat: real)

  /** The great-circle distance between two coordinates. The engine treats it
      as a black box, so every operation takes it as a parameter. */
  type Distance = (Coord, Coord) -> real

  /** One station record of the input data: a station on one line, with its
      coordinate and an optional position hint along that line. */
  datatype Feature = Feature(station: Name, line: Name, coords: Coord, order: Option<int>)

  /** An authorised line change between (stationA, lineA) and (stationB, lineB). */
  datatype TransferRule = TransferRule(stationA: Name, lineA: Name, stationB: Name, lineB: Name)

  /** A search state: the station the traveller is at and the line they are on.
      A graph connection has the same shape: the neighbour and the line entered. */
  datatype State = State(station: Name, line: Name)

  /** A graph node: one coordinate, the lines serving the station and its
      outgoing, line-tagged connections in insertion order. */
  datatype Station = Station(coords: Coord, lines: set<Name>, connections: seq<State>)

  type Graph = map<Name, Station>

  /** Order hint used for records that carry none. */
  const DefaultOrder: int := 9999

  /** Factor applied to the distance of a line-changing step. */
  const TransferCost: real := 2.0

  /** Fixed penalty added to a line-changing step. */
  const TransferDistancePenalty: real := 0.5

  /** Every connection leads to a station of the graph. */
  ghost predicate WellFormed(g: Graph) {
    forall n, c :: n in g && c in g[n].connections ==> c.station in g
  }

}

=== FILE: pathfinder.dfy ===
/** Best-first (A*) search over (station, line) states. */
module Pathfinder {
  import opened Network
  import opened Transfers
  import opened Frontier
  import opened Itinerary

  /** The cost of one step: the distance between the two stations, doubled
      and increased by a fixed penalty when the step changes line. */
  function CalculateCost(g: Graph, dist: Distance, cur: State, next: State): (c: real)
    requires cur.station in g && next.station in g
    ensures var d := dist(g[cur.station].coords, g[next.station].coords);
            && (cur.line == next.line ==> c == d)
            && (d >= 0.0 ==> c >= d)
            && (cur.line != next.line && d >= 0.0 ==> c >= d + TransferDistancePenalty)
  {
    var d := dist(g[cur.station].coords, g[next.station].coords);
    if cur.line != next.line then d * TransferCost + TransferDistancePenalty else d
  }

  /** The distance from station `st` to the goal station. */
  function Heuristic(g: Graph, dist: Distance, st: Name, goal: Name): real
    requires st in g && goal in g
  {
    dist(g[st].coords, g[goal].coords)
  }

  /** Moving from state `a` to state `b` follows a connection of `a`'s
      station and is accepted by the transfer validator. */
  ghost predicate IsStep(g: Graph, cache: TransferCache, a: State, b: State) {
    && a.station in g
    && b in g[a.station].connections
    && IsValidTransfer(cache, a.station, a.line, b.station, b.line)
  }

  ghost predicate OnGraph(g: Graph, w: seq<State>) {
    forall i :: 0 <= i < |w| ==> w[i].station in g
  }

  /** A non-empty sequence of states whose consecutive pairs are steps. */
  ghost predicate IsWalk(g: Graph, cache: TransferCache, w: seq<State>) {
    && |w| >= 1
    && w[0].station in g
    && forall i :: 0 <= i < |w| - 1 ==> IsStep(g, cache, w[i], w[i + 1])
  }

  /** A state the search is seeded with: the start station on one of its lines. */
  ghost predicate StartState(g: Graph, start: Name, s: State) {
    s.station == start && start in g && s.line in g[start].lines
  }

  /** A state that ends the search: the goal station, on the required line if any. */
  predicate GoalMatch(goal: Name, endLine: Option<Name>, s: State) {
    s.station == goal && (endLine.None? || s.line == endLine.value)
  }

  /** No walk from a start state ends in a goal state. */
  ghost predicate NoRoute(g: Graph, cache: TransferCache, start: Name, goal: Name, endLine: Option<Name>) {
    forall w :: IsWalk(g, cache, w) && StartState(g, start, w[0]) ==> !GoalMatch(goal, endLine, w[|w| - 1])
  }

  /** The sum of the step costs along `w`. */
  function PathCost(g: Graph, dist: Distance, w: seq<State>): real
    requires OnGraph(g, w)
    decreases |w|
  {
    if |w| <= 1 then 0.0
    else PathCost(g, dist, w[..|w| - 1]) + CalculateCost(g, dist, w[|w| - 2], w[|w| - 1])
  }

  /** A successful search: the (station, line) path, its station names, the
      itinerary, the total cost and the number of transfers. */
  datatype Route = Route(path: seq<State>, stations: seq<Name>, details: seq<Detail>,
                         distance: real, transfers: int)

  /** The per-search maps: best known cost, predecessor and transfer count. */
  datatype Scores = Scores(gScore: map<State, real>,
                           cameFrom: map<State, Option<State>>,
                           transferCounts: map<State, int>)

  /** `x` was reached from `p` by one step, and its recorded cost and
      transfer count are those of `p` plus that step. */
  ghost predicate Linked(g: Graph, cache: TransferCache, dist: Distance, m: Scores, p: State, x: State)
    requires m.transferCounts.Keys == m.gScore.Keys
  {
    && p in m.gScore && x in m.gScore
    && IsStep(g, cache, p, x)
    && x.station in g
    && m.gScore[x] == m.gScore[p] + CalculateCost(g, dist, p, x)
    && m.transferCounts[x] == m.transferCounts[p] + (if p.line != x.line then 1 else 0)
  }

  /** The search invariant over the maps: states without a predecessor are
      start states with zero cost and zero transfers; every other state's
      predecessor is explored and linked to it by one step. */
  ghost predicate MapsInv(g: Graph, cache: TransferCache, dist: Distance, start: Name,
                          m: Scores, explored: set<State>) {
    && m.cameFrom.Keys == m.gScore.Keys
    && m.transferCounts.Keys == m.gScore.Keys
    && explored <= m.gScore.Keys
    && (forall x :: x in m.gScore ==> x.station in g)
    && (forall x :: x in m.cameFrom && m.cameFrom[x].None? ==>
          StartState(g, start, x) && m.gScore[x] == 0.0 && m.transferCounts[x] == 0)
    && (forall x :: x in m.cameFrom && m.cameFrom[x].Some? ==>
          m.cameFrom[x].value in explored && Linked(g, cache, dist, m, m.cameFrom[x].value, x))
  }

  /** Explored states are ranked in exploration order; a predecessor has a
      smaller rank than its successor. */
  ghost predicate Ranked(m: Scores, explored: set<State>, rank: map<State, nat>) {
    && rank.Keys == explored
    && forall x :: x in rank ==>
         && rank[x] < |explored|
         && x in m.cameFrom
         && (m.cameFrom[x].Some? ==> m.cameFrom[x].value in rank && rank[m.cameFrom[x].value] < rank[x])
  }

  /** Every step out of an explored state leads to a state with a known cost. */
  ghost predicate Closed(g: Graph, cache: TransferCache, m: Scores, explored: set<State>) {
    forall x, b :: x in explored && IsStep(g, cache, x, b) ==> b in m.gScore
  }

  /** Every state the search can ever hold. */
  ghost function Universe(g: Graph, start: Name): set<State>
    requires start in g
  {
    StartStates(g, start) + (set n, c | n in g && c in g[n].connections :: c)
  }

  /** One relaxation step (the body of the inner loop once `next` is a
      valid, unexplored neighbour): when the cost through `current` beats the
      best known cost of `next`, or none is known, `next` gets that cost,
      `current` as predecessor and one more transfer on a line change, and
      is (re)queued at that cost plus the heuristic; otherwise nothing
      changes. */
  function RelaxStep(g: Graph, dist: Distance, goal: Name, m: Scores, q: PQueue,
                     current: State, next: State): (r: (Scores, PQueue))
    requires Valid(q) && goal in g && current.station in g && next.station in g
    requires current in m.gScore && current in m.transferCounts
    ensures Improves(g, dist, m, current, next) ==>
              && r.0.gScore.Keys == m.gScore.Keys + {next}
              && r.0.cameFrom.Keys == m.cameFrom.Keys + {next}
              && r.0.transferCounts.Keys == m.transferCounts.Keys + {next}
              && r.0.gScore[next] == m.gScore[current] + CalculateCost(g, dist, current, next)
              && r.0.cameFrom[next] == Some(current)
              && r.0.transferCounts[next] == m.transferCounts[current] + (if current.line != next.line then 1 else 0)
              && (forall x :: x in m.gScore && x != next ==> r.0.gScore[x] == m.gScore[x])
              && (forall x :: x in m.cameFrom && x != next ==> x in r.0.cameFrom && r.0.cameFrom[x] == m.cameFrom[x])
              && (forall x :: x in m.transferCounts && x != next ==>
                    x in r.0.transferCounts && r.0.transferCounts[x] == m.transferCounts[x])
              && r.1 == Put(q, next, r.0.gScore[next] + Heuristic(g, dist, next.station, goal))
    ensures !Improves(g, dist, m, current, next) ==> r == (m, q)
  {
    if Improves(g, dist, m, current, next) then
      var m' := Record(g, dist, m, current, next);
      (m', Put(q, next, m'.gScore[next] + Heuristic(g, dist, next.station, goal)))
    else
      (m, q)
  }

  /** State `x` has the same cost, predecessor and transfer count in `m'`
      as in `m`. */
  ghost predicate Unchanged(m: Scores, m': Scores, x: State) {
    && x in m.gScore && x in m.cameFrom && x in m.transferCounts
    && x in m'.gScore && x in m'.cameFrom && x in m'.transferCounts
    && m'.gScore[x] == m.gScore[x] && m'.cameFrom[x] == m.cameFrom[x]
    && m'.transferCounts[x] == m.transferCounts[x]
  }

  /** `x` is a connection in `cs` that the relaxation from `current` acts on:
      the validator accepts the move, `x` is unexplored, and the cost
      through `current` in `m` beats the best known cost of `x`. */
  ghost predicate Relaxable(g: Graph, cache: TransferCache, dist: Distance, explored: set<State>,
                            m: Scores, current: State, cs: seq<State>, x: State) {
    && x in cs && x !in explored
    && IsValidTransfer(cache, current.station, current.line, x.station, x.line)
    && current.station in g && x.station in g && current in m.gScore
    && Improves(g, dist, m, current, x)
  }

  /** `x` is recorded in `m'` as reached from `current`: `current` is its
      predecessor, its cost and transfer count are those of `current` in `m`
      plus the step, and a cost already known in `m` strictly dropped. */
  ghost predicate RecordedFrom(g: Graph, dist: Distance, m: Scores, m': Scores, current: State, x: State) {
    && current.station in g && x.station in g
    && current in m.gScore && current in m.transferCounts
    && x in m'.gScore && x in m'.cameFrom && x in m'.transferCounts
    && m'.cameFrom[x] == Some(current)
    && m'.gScore[x] == m.gScore[current] + CalculateCost(g, dist, current, x)
    && m'.transferCounts[x] == m.transferCounts[current] + (if current.line != x.line then 1 else 0)
    && (x in m.gScore ==> m'.gScore[x] < m.gScore[x])
  }

  /** Two rounds of relaxation from the same `current`, each of which only
      changes states it relaxes and records from `current`, together change
      only states relaxable in `m` and recorded from `current`. */
  lemma ChangedCompose(g: Graph, cache: TransferCache, dist: Distance, explored: set<State>,
                       m: Scores, m1: Scores, m': Scores, current: State, cs1: seq<State>, cs2: seq<State>)
    requires m.gScore.Keys <= m1.gScore.Keys <= m'.gScore.Keys
    requires forall x :: x in m.gScore ==> m1.gScore[x] <= m.gScore[x]
    requires Unchanged(m, m1, current)
    requires forall x :: x in m1.gScore && !Unchanged(m, m1, x) ==>
               Relaxable(g, cache, dist, explored, m, current, cs1, x) && RecordedFrom(g, dist, m, m1, current, x)
    requires forall x :: x in m'.gScore && !Unchanged(m1, m', x) ==>
               Relaxable(g, cache, dist, explored, m1, current, cs2, x) && RecordedFrom(g, dist, m1, m', current, x)
    ensures forall x :: x in m'.gScore && !Unchanged(m, m', x) ==>
              Relaxable(g, cache, dist, explored, m, current, cs1 + cs2, x) && RecordedFrom(g, dist, m, m', current, x)
  {
    forall x | x in m'.gScore && !Unchanged(m, m', x)
      ensures Relaxable(g, cache, dist, explored, m, current, cs1 + cs2, x) && RecordedFrom(g, dist, m, m', current, x)
    {
      if x in m1.gScore && Unchanged(m1, m', x) {
        assert !Unchanged(m, m1, x);
        assert Relaxable(g, cache, dist, explored, m, current, cs1, x);
      } else {
        assert Relaxable(g, cache, dist, explored, m1, current, cs2, x);
        assert RecordedFrom(g, dist, m1, m', current, x);
      }
    }
  }

  /** Every live entry of the frontier is keyed by its item's best known
      cost plus the heuristic of its station. */
  ghost predicate Prioritized(g: Graph, dist: Distance, goal: Name, m: Scores, q: PQueue) {
    && goal in g
    && forall e :: e in q.entries && e.item.Some? ==>
         && e.item.value in m.gScore && e.item.value.station in g
         && e.priority == m.gScore[e.item.value] + Heuristic(g, dist, e.item.value.station, goal)
  }

  /** A relaxation step changes at most `next`, and only when the step is
      relaxable, recording it as reached from `current`. */
  lemma RelaxStepChanged(g: Graph, cache: TransferCache, dist: Distance, explored: set<State>, goal: Name,
                         m: Scores, q: PQueue, current: State, next: State)
    requires Valid(q) && goal in g && current.station in g && next.station in g
    requires current in m.gScore && current in m.transferCounts
    requires m.cameFrom.Keys == m.gScore.Keys && m.transferCounts.Keys == m.gScore.Keys
    requires next !in explored && IsValidTransfer(cache, current.station, current.line, next.station, next.line)
    ensures var r := RelaxStep(g, dist, goal, m, q, current, next);
            forall x :: x in r.0.gScore && !Unchanged(m, r.0, x) ==>
              Relaxable(g, cache, dist, explored, m, current, [next], x) && RecordedFrom(g, dist, m, r.0, current, x)
  {
    var r := RelaxStep(g, dist, goal, m, q, current, next);
    forall x | x in r.0.gScore && !Unchanged(m, r.0, x)
      ensures Relaxable(g, cache, dist, explored, m, current, [next], x) && RecordedFrom(g, dist, m, r.0, current, x)
    {
      assert x == next && Improves(g, dist, m, current, next);
    }
  }

  /** What a relaxation step keeps: the known states grow by at most
      `next`, no known cost rises, every other state keeps its record, and
      `next` ends with a cost no greater than that through `current`. */
  lemma RelaxStepFrames(g: Graph, dist: Distance, goal: Name, m: Scores, q: PQueue,
                        current: State, next: State)
    requires Valid(q) && goal in g && current.station in g && next.station in g
    requires current in m.gScore && current in m.transferCounts
    requires m.cameFrom.Keys == m.gScore.Keys && m.transferCounts.Keys == m.gScore.Keys
    ensures var m' := RelaxStep(g, dist, goal, m, q, current, next).0;
            && m'.gScore.Keys == m.gScore.Keys + {next}
            && (forall x :: x in m.gScore ==> m'.gScore[x] <= m.gScore[x])
            && m'.gScore[next] <= m.gScore[current] + CalculateCost(g, dist, current, next)
            && (forall x :: x in m.gScore && x != next ==> Unchanged(m, m', x))
  {
  }

  /** A relaxation step keeps every live entry keyed by cost plus heuristic. */
  lemma RelaxStepPrioritized(g: Graph, dist: Distance, goal: Name, m: Scores, q: PQueue,
                             current: State, next: State)
    requires Valid(q) && goal in g && current.station in g && next.station in g
    requires current in m.gScore && current in m.transferCounts
    requires Prioritized(g, dist, goal, m, q)
    ensures var r := RelaxStep(g, dist, goal, m, q, current, next); Prioritized(g, dist, goal, r.0, r.1)
  {
    var r := RelaxStep(g, dist, goal, m, q, current, next);
    if Improves(g, dist, m, current, next) {
      var p := r.0.gScore[next] + Heuristic(g, dist, next.station, goal);
      forall e | e in r.1.entries && e.item.Some?
        ensures && e.item.value in r.0.gScore && e.item.value.station in g
                && e.priority == r.0.gScore[e.item.value] + Heuristic(g, dist, e.item.value.station, goal)
      {
        if e.item == Some(next) {
          assert e == Entry(p, q.counter, Some(next));
        } else {
          assert e in q.entries;
        }
      }
    }
  }

  /** The live entry popped first carries the least cost plus heuristic of
      all known unexplored states. */
  lemma BestFirst(g: Graph, dist: Distance, goal: Name, m: Scores, q: PQueue, explored: set<State>, e: Entry)
    requires Prioritized(g, dist, goal, m, q) && Live(q) == m.gScore.Keys - explored
    requires IsLeast(q, e)
    requires forall x :: x in m.gScore ==> x.station in g
    ensures e.item.value in m.gScore && e.item.value.station in g
    ensures forall x :: x in m.gScore && x !in explored ==>
              m.gScore[e.item.value] + Heuristic(g, dist, e.item.value.station, goal)
                <= m.gScore[x] + Heuristic(g, dist, x.station, goal)
  {
    forall x | x in m.gScore && x !in explored
      ensures m.gScore[e.item.value] + Heuristic(g, dist, e.item.value.station, goal)
                <= m.gScore[x] + Heuristic(g, dist, x.station, goal)
    {
      assert x in Live(q);
      var f :| f in q.entries && f.item.Some? && f.item.value == x;
      assert e == f || KeyLess(e, f);
    }
  }

  /** The cost through `current` beats the best known cost of `next`, or
      none is known. */
  predicate Improves(g: Graph, dist: Distance, m: Scores, current: State, next: State)
    requires current.station in g && next.station in g && current in m.gScore
  {
    next !in m.gScore || m.gScore[current] + CalculateCost(g, dist, current, next) < m.gScore[next]
  }

  /** A relaxation step from the explored state `current` to the unexplored
      neighbour `next` keeps the maps invariant and the frontier in step
      with the known unexplored states, and gives `next` a cost no greater
      than that of `current` plus the step. */
  method Relax(g: Graph, cache: TransferCache, dist: Distance, start: Name, goal: Name,
               m: Scores, q: PQueue, explored: set<State>, current: State, next: State)
    returns (m': Scores, q': PQueue)
    requires goal in g && next.station in g
    requires MapsInv(g, cache, dist, start, m, explored)
    requires Valid(q) && Live(q) == m.gScore.Keys - explored
    requires current in explored && next !in explored
    requires IsStep(g, cache, current, next)
    ensures (m', q') == RelaxStep(g, dist, goal, m, q, current, next)
    ensures MapsInv(g, cache, dist, start, m', explored)
    ensures Valid(q') && Live(q') == m'.gScore.Keys - explored
    ensures m'.gScore.Keys == m.gScore.Keys + {next}
    ensures forall x :: x in m.gScore ==> m'.gScore[x] <= m.gScore[x]
    ensures forall x :: x in explored ==> m'.cameFrom[x] == m.cameFrom[x] && m'.gScore[x] == m.gScore[x]
    ensures m'.gScore[next] <= m.gScore[current] + CalculateCost(g, dist, current, next)
    ensures forall x :: x in m.gScore && x != next ==> Unchanged(m, m', x)
    ensures forall x :: x in m'.gScore && !Unchanged(m, m', x) ==>
              Relaxable(g, cache, dist, explored, m, current, [next], x) && RecordedFrom(g, dist, m, m', current, x)
    ensures Prioritized(g, dist, goal, m, q) ==> Prioritized(g, dist, goal, m', q')
  {
    var r := RelaxStep(g, dist, goal, m, q, current, next);
    m', q' := r.0, r.1;
    if Prioritized(g, dist, goal, m, q) {
      RelaxStepPrioritized(g, dist, goal, m, q, current, next);
    }
    RelaxStepChanged(g, cache, dist, explored, goal, m, q, current, next);
    RelaxStepFrames(g, dist, goal, m, q, current, next);
    if Improves(g, dist, m, current, next) {
      assert m' == Record(g, dist, m, current, next);
      RelaxKeepsInv(g, cache, dist, start, m, explored, current, next);
      AddUnexplored(m.gScore.Keys, explored, next);
    }
  }

  /** Connection `c` of `current` is refused by the validator or has a known cost. */
  ghost predicate Handled(cache: TransferCache, current: State, c: State, keys: set<State>) {
    !IsValidTransfer(cache, current.station, current.line, c.station, c.line) || c in keys
  }

  /** The inner loop of the search, from connection `i` of `current` on:
      relaxes every neighbour that the transfer validator accepts and that
      is not yet explored. */
  method ExpandFrom(g: Graph, cache: TransferCache, dist: Distance, start: Name, goal: Name,
                    m: Scores, q: PQueue, explored: set<State>, current: State, i: nat)
    returns (m': Scores, q': PQueue)
    requires WellFormed(g) && goal in g && current.station in g
    requires i <= |g[current.station].connections|
    requires MapsInv(g, cache, dist, start, m, explored)
    requires Valid(q) && Live(q) == m.gScore.Keys - explored
    requires current in explored
    ensures MapsInv(g, cache, dist, start, m', explored)
    ensures Valid(q') && Live(q') == m'.gScore.Keys - explored
    ensures m.gScore.Keys <= m'.gScore.Keys
    ensures forall x :: x in m'.gScore ==> x in m.gScore || x in g[current.station].connections
    ensures forall x :: x in explored ==> m'.cameFrom[x] == m.cameFrom[x] && m'.gScore[x] == m.gScore[x]
    ensures forall j :: i <= j < |g[current.station].connections| ==>
              Handled(cache, current, g[current.station].connections[j], m'.gScore.Keys)
    ensures forall x :: x in m.gScore ==> m'.gScore[x] <= m.gScore[x]
    ensures forall j :: i <= j < |g[current.station].connections| ==>
              Improved(g, cache, dist, explored, m, m', current, g[current.station].connections[j])
    ensures forall x :: x in m.gScore && x !in g[current.station].connections ==> Unchanged(m, m', x)
    ensures forall x :: x in m'.gScore && !Unchanged(m, m', x) ==>
              && Relaxable(g, cache, dist, explored, m, current, g[current.station].connections[i..], x)
              && RecordedFrom(g, dist, m, m', current, x)
    ensures Prioritized(g, dist, goal, m, q) ==> Prioritized(g, dist, goal, m', q')
    decreases |g[current.station].connections| - i
  {
    var conns := g[current.station].connections;
    if i == |conns| {
      assert forall x :: x in m.gScore ==> Unchanged(m, m, x);
      return m, q;
    }
    var next := conns[i];
    var m1, q1 := m, q;
    if IsValidTransfer(cache, current.station, current.line, next.station, next.line) && next !in explored {
      m1, q1 := Relax(g, cache, dist, start, goal, m, q, explored, current, next);
    } else {
      assert forall x :: x in m.gScore ==> Unchanged(m, m, x);
    }
    assert Handled(cache, current, next, m1.gScore.Keys);
    assert Improved(g, cache, dist, explored, m, m1, current, next);
    m', q' := ExpandFrom(g, cache, dist, start, goal, m1, q1, explored, current, i + 1);
    ChangedCompose(g, cache, dist, explored, m, m1, m', current, [next], conns[i + 1..]);
    SliceCons(conns, i);
    forall j | i <= j < |conns| ensures Handled(cache, current, conns[j], m'.gScore.Keys) {
      if j == i {
        assert Handled(cache, current, next, m'.gScore.Keys);
      }
    }
    forall j | i <= j < |conns| ensures Improved(g, cache, dist, explored, m, m', current, conns[j]) {
      if j == i {
        assert Improved(g, cache, dist, explored, m, m', current, next);
      } else {
        assert Improved(g, cache, dist, explored, m1, m', current, conns[j]);
      }
    }
  }

  lemma SliceCons(s: seq<State>, i: nat)
    requires i < |s|
    ensures s[i..] == [s[i]] + s[i + 1..]
  {
  }

  /** A valid, unexplored neighbour `c` of `current` ends with a known cost
      no greater than that of `current` in `m` plus the step. */
  ghost predicate Improved(g: Graph, cache: TransferCache, dist: Distance, explored: set<State>,
                           m: Scores, m': Scores, current: State, c: State) {
    (IsValidTransfer(cache, current.station, current.line, c.station, c.line) && c !in explored
      && current.station in g && c.station in g && current in m.gScore)
      ==> c in m'.gScore && m'.gScore[c] <= m.gScore[current] + CalculateCost(g, dist, current, c)
  }

  /** Relaxes every neighbour of the explored state `current`; afterwards
      every step out of `current` leads to a state with a known cost. */
  method ExpandState(g: Graph, cache: TransferCache, dist: Distance, start: Name, goal: Name,
                     m: Scores, q: PQueue, explored: set<State>, current: State)
    returns (m': Scores, q': PQueue)
    requires WellFormed(g) && goal in g
    requires MapsInv(g, cache, dist, start, m, explored)
    requires Valid(q) && Live(q) == m.gScore.Keys - explored
    requires current in explored
    ensures MapsInv(g, cache, dist, start, m', explored)
    ensures Valid(q') && Live(q') == m'.gScore.Keys - explored
    ensures m.gScore.Keys <= m'.gScore.Keys
    ensures forall x :: x in m'.gScore ==> x in m.gScore || x in g[current.station].connections
    ensures forall x :: x in explored ==> m'.cameFrom[x] == m.cameFrom[x] && m'.gScore[x] == m.gScore[x]
    ensures forall b :: IsStep(g, cache, current, b) ==> b in m'.gScore
    ensures forall x :: x in m.gScore ==> m'.gScore[x] <= m.gScore[x]
    ensures forall b :: IsStep(g, cache, current, b) && b !in explored ==>
              b.station in g && m'.gScore[b] <= m.gScore[current] + CalculateCost(g, dist, current, b)
    ensures forall x :: x in m.gScore && x !in g[current.station].connections ==> Unchanged(m, m', x)
    ensures forall x :: x in m'.gScore && !Unchanged(m, m', x) ==>
              && Relaxable(g, cache, dist, explored, m, current, g[current.station].connections, x)
              && RecordedFrom(g, dist, m, m', current, x)
    ensures Prioritized(g, dist, goal, m, q) ==> Prioritized(g, dist, goal, m', q')
  {
    m', q' := ExpandFrom(g, cache, dist, start, goal, m, q, explored, current, 0);
    var conns := g[current.station].connections;
    assert conns[0..] == conns;
    forall b | IsStep(g, cache, current, b) ensures b in m'.gScore {
      var j :| 0 <= j < |conns| && conns[j] == b;
      assert Handled(cache, current, conns[j], m'.gScore.Keys);
    }
    ImprovedSteps(g, cache, dist, explored, m, m', current);
  }

  /** When every connection of `current` is improved, so is every valid step
      out of `current` to an unexplored state. */
  lemma ImprovedSteps(g: Graph, cache: TransferCache, dist: Distance, explored: set<State>,
                      m: Scores, m': Scores, current: State)
    requires WellFormed(g) && current.station in g && current in m.gScore
    requires forall j :: 0 <= j < |g[current.station].connections| ==>
               Improved(g, cache, dist, explored, m, m', current, g[current.station].connections[j])
    ensures forall b :: IsStep(g, cache, current, b) && b !in explored ==>
              b.station in g && b in m'.gScore && m'.gScore[b] <= m.gScore[current] + CalculateCost(g, dist, current, b)
  {
    var conns := g[current.station].connections;
    forall b | IsStep(g, cache, current, b) && b !in explored
      ensures b.station in g && b in m'.gScore && m'.gScore[b] <= m.gScore[current] + CalculateCost(g, dist, current, b)
    {
      var j :| 0 <= j < |conns| && conns[j] == b;
      assert Improved(g, cache, dist, explored, m, m', current, conns[j]);
    }
  }

  lemma AddUnexplored(keys: set<State>, explored: set<State>, next: State)
    requires next !in explored
    ensures (keys - explored) + {next} == (keys + {next}) - explored
  {
  }

  /** The maps after recording that `next` is reached from `current`: its
      cost and transfer count are those of `current` plus the step. */
  function Record(g: Graph, dist: Distance, m: Scores, current: State, next: State): (r: Scores)
    requires current in m.gScore && current in m.transferCounts
    requires current.station in g && next.station in g
    ensures r.gScore.Keys == m.gScore.Keys + {next}
    ensures r.cameFrom.Keys == m.cameFrom.Keys + {next}
    ensures r.transferCounts.Keys == m.transferCounts.Keys + {next}
    ensures r.gScore[next] == m.gScore[current] + CalculateCost(g, dist, current, next)
    ensures r.cameFrom[next] == Some(current)
    ensures r.transferCounts[next] == m.transferCounts[current] + (if current.line != next.line then 1 else 0)
    ensures forall x :: x in m.gScore && x != next ==> r.gScore[x] == m.gScore[x]
    ensures forall x :: x in m.cameFrom && x != next ==> r.cameFrom[x] == m.cameFrom[x]
    ensures forall x :: x in m.transferCounts && x != next ==> r.transferCounts[x] == m.transferCounts[x]
  {
    Scores(m.gScore[next := m.gScore[current] + CalculateCost(g, dist, current, next)],
           m.cameFrom[next := Some(current)],
           m.transferCounts[next := m.transferCounts[current] + (if current.line != next.line then 1 else 0)])
  }

  /** Recording a step from an explored state to an unexplored one keeps
      the search invariant. */
  lemma RelaxKeepsInv(g: Graph, cache: TransferCache, dist: Distance, start: Name,
                      m: Scores, explored: set<State>, current: State, next: State)
    requires MapsInv(g, cache, dist, start, m, explored)
    requires current in explored && next !in explored
    requires IsStep(g, cache, current, next) && next.station in g
    ensures MapsInv(g, cache, dist, start, Record(g, dist, m, current, next), explored)
  {
    var m' := Record(g, dist, m, current, next);
    forall x | x in m'.gScore ensures x.station in g {
      if x != next {
        assert x in m.gScore;
      }
    }
    forall x | x in m'.cameFrom && m'.cameFrom[x].None?
      ensures StartState(g, start, x) && m'.gScore[x] == 0.0 && m'.transferCounts[x] == 0
    {
      assert x != next && x in m.cameFrom && m.cameFrom[x].None?;
    }
    forall x | x in m'.cameFrom && m'.cameFrom[x].Some?
      ensures m'.cameFrom[x].value in explored && Linked(g, cache, dist, m', m'.cameFrom[x].value, x)
    {
      if x != next {
        KeepsLink(g, cache, dist, m, m', explored, next, m.cameFrom[x].value, x);
      }
    }
  }

  /** A link between two states other than `next` survives recording `next`. */
  lemma KeepsLink(g: Graph, cache: TransferCache, dist: Distance, m: Scores, m': Scores,
                  explored: set<State>, next: State, p: State, x: State)
    requires m.transferCounts.Keys == m.gScore.Keys && m'.transferCounts.Keys == m'.gScore.Keys
    requires Linked(g, cache, dist, m, p, x) && p in explored && next !in explored && x != next
    requires m.gScore.Keys <= m'.gScore.Keys
    requires forall y :: y in m.gScore && y != next ==> m'.gScore[y] == m.gScore[y]
    requires forall y :: y in m.transferCounts && y != next ==> m'.transferCounts[y] == m.transferCounts[y]
    ensures Linked(g, cache, dist, m', p, x)
  {
  }

  /** Follows predecessor links back from `final` to a state without one. */
  method ReconstructPath(cameFrom: map<State, Option<State>>, final: State, ghost rank: map<State, nat>)
    returns (path: seq<State>)
    requires final in rank
    requires forall x :: x in rank ==>
               (x in cameFrom && (cameFrom[x].Some? ==> cameFrom[x].value in rank && rank[cameFrom[x].value] < rank[x]))
    ensures |path| >= 1 && path[|path| - 1] == final
    ensures forall i :: 0 <= i < |path| ==> path[i] in rank
    ensures cameFrom[path[0]].None?
    ensures forall i :: 0 <= i < |path| - 1 ==> cameFrom[path[i + 1]] == Some(path[i])
  {
    path := [];
    var current: Option<State> := Some(final);
    while current.Some?
      invariant current.Some? ==> current.value in rank
      invariant path == [] <==> current == Some(final)
      invariant forall i :: 0 <= i < |path| ==> path[i] in rank
      invariant path != [] ==> path[|path| - 1] == final && cameFrom[path[0]] == current
      invariant forall i :: 0 <= i < |path| - 1 ==> cameFrom[path[i + 1]] == Some(path[i])
      decreases if current.Some? then rank[current.value] + 1 else 0
    {
      var x := current.value;
      path := [x] + path;
      current := cameFrom[x];
    }
  }

  /** `path` is a predecessor chain in `m`: it starts at a state without
      predecessor and each state is recorded as reached from the one before. */
  ghost predicate IsChain(m: Scores, path: seq<State>) {
    && |path| >= 1
    && (forall i :: 0 <= i < |path| ==> path[i] in m.cameFrom)
    && m.cameFrom[path[0]].None?
    && (forall i :: 0 <= i < |path| - 1 ==> m.cameFrom[path[i + 1]] == Some(path[i]))
  }

  /** Dropping the last state of a chain leaves a chain. */
  lemma ChainPrefix(m: Scores, path: seq<State>)
    requires IsChain(m, path) && |path| > 1
    ensures IsChain(m, path[..|path| - 1])
  {
    var prefix := path[..|path| - 1];
    assert forall i :: 0 <= i < |prefix| ==> prefix[i] == path[i];
  }

  /** The last step of a chain links its last two states. */
  lemma ChainLast(g: Graph, cache: TransferCache, dist: Distance, start: Name,
                  m: Scores, explored: set<State>, path: seq<State>)
    requires MapsInv(g, cache, dist, start, m, explored)
    requires IsChain(m, path) && |path| > 1
    ensures Linked(g, cache, dist, m, path[|path| - 2], path[|path| - 1])
  {
    var n := |path| - 1;
    assert m.cameFrom[path[n]] == Some(path[n - 1]);
  }

  /** Along a predecessor chain the recorded cost and transfer count of the
      last state are the path's cost and its number of line changes. */
  lemma {:induction false} ChainScores(g: Graph, cache: TransferCache, dist: Distance, start: Name,
                                       m: Scores, explored: set<State>, path: seq<State>)
    requires MapsInv(g, cache, dist, start, m, explored)
    requires IsChain(m, path) && OnGraph(g, path)
    ensures m.gScore[path[|path| - 1]] == PathCost(g, dist, path)
    ensures m.transferCounts[path[|path| - 1]] == LineChanges(path)
    decreases |path|
  {
    if |path| > 1 {
      var n := |path| - 1;
      var prefix := path[..n];
      ChainPrefix(m, path);
      assert prefix[n - 1] == path[n - 1];
      assert OnGraph(g, prefix);
      ChainScores(g, cache, dist, start, m, explored, prefix);
      ChainLast(g, cache, dist, start, m, explored, path);
    } else {
      assert m.cameFrom[path[0]].None?;
    }
  }

  /** In a closed set of states that holds every start state, every walk
      from a start state stays inside the set. */
  lemma {:induction false} ClosedHoldsWalk(g: Graph, cache: TransferCache, start: Name, m: Scores,
                                           explored: set<State>, w: seq<State>, i: nat)
    requires Closed(g, cache, m, explored) && m.gScore.Keys <= explored
    requires start in g && forall l :: l in g[start].lines ==> State(start, l) in m.gScore
    requires IsWalk(g, cache, w) && StartState(g, start, w[0])
    requires i < |w|
    ensures w[i] in explored
    decreases i
  {
    if i == 0 {
      assert w[0] == State(start, w[0].line);
    } else {
      ClosedHoldsWalk(g, cache, start, m, explored, w, i - 1);
      assert IsStep(g, cache, w[i - 1], w[i]);
    }
  }

  /** The states of station `st` on each of the lines `ls`. */
  ghost function StatesOn(st: Name, ls: set<Name>): set<State> {
    set l | l in ls :: State(st, l)
  }

  /** The start states: the start station on each of its lines. */
  ghost function StartStates(g: Graph, start: Name): set<State>
    requires start in g
  {
    StatesOn(start, g[start].lines)
  }

  /** Taking line `l` off the lines still to seed adds exactly its state. */
  lemma SeedDone(st: Name, lines: set<Name>, remaining: set<Name>, l: Name)
    requires l in remaining && remaining <= lines
    ensures StatesOn(st, lines - (remaining - {l})) == StatesOn(st, lines - remaining) + {State(st, l)}
  {
    assert lines - (remaining - {l}) == (lines - remaining) + {l};
  }

  /** The maps after seeding the start state `s0`. */
  function Seed(m: Scores, s0: State): (r: Scores)
    ensures r.gScore.Keys == m.gScore.Keys + {s0}
    ensures r.cameFrom.Keys == m.cameFrom.Keys + {s0}
    ensures r.transferCounts.Keys == m.transferCounts.Keys + {s0}
    ensures r.gScore[s0] == 0.0 && r.cameFrom[s0] == None && r.transferCounts[s0] == 0
  {
    Scores(m.gScore[s0 := 0.0], m.cameFrom[s0 := None], m.transferCounts[s0 := 0])
  }

  /** Seeding a start state keeps the search invariant with nothing explored. */
  lemma SeedKeepsInv(g: Graph, cache: TransferCache, dist: Distance, start: Name, m: Scores, s0: State)
    requires MapsInv(g, cache, dist, start, m, {})
    requires StartState(g, start, s0)
    ensures MapsInv(g, cache, dist, start, Seed(m, s0), {})
  {
    var m' := Seed(m, s0);
    forall x | x in m'.cameFrom ensures m'.cameFrom[x].None? {
      if x != s0 {
        assert x in m.cameFrom;
      }
    }
    forall x | x in m'.cameFrom
      ensures x.station in g && StartState(g, start, x) && m'.gScore[x] == 0.0 && m'.transferCounts[x] == 0
    {
      if x != s0 {
        assert x in m.cameFrom && m.cameFrom[x].None?;
      }
    }
  }

  /** Seeds the search with every start state at cost zero, no predecessor
      and no transfers, queued at the heuristic of the start station. */
  method SeedFrontier(g: Graph, cache: TransferCache, dist: Distance, start: Name, goal: Name)
    returns (m: Scores, q: PQueue)
    requires start in g && goal in g
    ensures MapsInv(g, cache, dist, start, m, {})
    ensures Valid(q) && Live(q) == m.gScore.Keys
    ensures m.gScore.Keys == StartStates(g, start)
    ensures forall e :: e in q.entries ==> e.priority == Heuristic(g, dist, start, goal)
    ensures Prioritized(g, dist, goal, m, q)
  {
    m := Scores(map[], map[], map[]);
    q := EmptyQueue();
    var lines := g[start].lines;
    var remaining := lines;
    var h := Heuristic(g, dist, start, goal);
    assert lines - remaining == {};
    while remaining != {}
      invariant remaining <= lines
      invariant MapsInv(g, cache, dist, start, m, {})
      invariant Valid(q) && Live(q) == m.gScore.Keys
      invariant m.gScore.Keys == StatesOn(start, lines - remaining)
      invariant forall e :: e in q.entries ==> e.priority == h
      decreases remaining
    {
      var l :| l in remaining;
      var s0 := State(start, l);
      SeedKeepsInv(g, cache, dist, start, m, s0);
      SeedDone(start, lines, remaining, l);
      PutUniformPriority(q, s0, h);
      m := Seed(m, s0);
      q := Put(q, s0, h);
      remaining := remaining - {l};
    }
    assert lines - remaining == lines;
    SeedPrioritized(g, cache, dist, start, goal, m, q);
  }

  /** Seeded states cost zero, so a frontier keyed by the start station's
      heuristic is keyed by cost plus heuristic. */
  lemma SeedPrioritized(g: Graph, cache: TransferCache, dist: Distance, start: Name, goal: Name,
                        m: Scores, q: PQueue)
    requires start in g && goal in g
    requires MapsInv(g, cache, dist, start, m, {})
    requires Live(q) == m.gScore.Keys && m.gScore.Keys == StartStates(g, start)
    requires forall e :: e in q.entries ==> e.priority == Heuristic(g, dist, start, goal)
    ensures Prioritized(g, dist, goal, m, q)
  {
    forall e | e in q.entries && e.item.Some?
      ensures && e.item.value in m.gScore && e.item.value.station in g
              && e.priority == m.gScore[e.item.value] + Heuristic(g, dist, e.item.value.station, goal)
    {
      var x := e.item.value;
      assert x in Live(q);
      assert x.station == start;
      assert m.cameFrom[x].None?;
    }
  }

  /** Exploring a new state keeps the ranking. */
  lemma RankExtend(m: Scores, explored: set<State>, rank: map<State, nat>, current: State)
    requires Ranked(m, explored, rank)
    requires current !in explored && current in m.cameFrom
    requires m.cameFrom[current].Some? ==> m.cameFrom[current].value in explored
    ensures Ranked(m, explored + {current}, rank[current := |explored|])
  {
  }

  /** The ranking survives maps that keep the predecessors of explored states. */
  lemma RankKeep(m: Scores, m': Scores, explored: set<State>, rank: map<State, nat>)
    requires Ranked(m, explored, rank)
    requires forall x :: x in explored ==> x in m'.cameFrom && m'.cameFrom[x] == m.cameFrom[x]
    ensures Ranked(m', explored, rank)
  {
  }

  /** The invariant of the main loop: the maps invariant, a frontier whose
      live items are the known but unexplored states, a ranking of the
      explored states, closure of the explored states under steps, every
      start state known, every known state inside the universe, no
      explored state matching the goal, and every live entry keyed by its
      item's cost plus heuristic. */
  ghost predicate SearchInv(g: Graph, cache: TransferCache, dist: Distance, start: Name, goal: Name,
                            endLine: Option<Name>, m: Scores, q: PQueue, explored: set<State>,
                            rank: map<State, nat>) {
    && start in g
    && MapsInv(g, cache, dist, start, m, explored)
    && Valid(q) && Live(q) == m.gScore.Keys - explored
    && Ranked(m, explored, rank)
    && Closed(g, cache, m, explored)
    && StartStates(g, start) <= m.gScore.Keys <= Universe(g, start)
    && (forall x :: x in explored ==> !GoalMatch(goal, endLine, x))
    && Prioritized(g, dist, goal, m, q)
  }

  /** Exploring one more known state keeps the maps invariant. */
  lemma MapsInvGrow(g: Graph, cache: TransferCache, dist: Distance, start: Name,
                    m: Scores, explored: set<State>, current: State)
    requires MapsInv(g, cache, dist, start, m, explored) && current in m.gScore
    ensures MapsInv(g, cache, dist, start, m, explored + {current})
  {
  }

  /** The neighbours of a station on the graph lie in the universe. */
  lemma NeighboursInUniverse(g: Graph, start: Name, n: Name, keys: set<State>, keys': set<State>)
    requires start in g && n in g && keys <= Universe(g, start)
    requires forall x :: x in keys' ==> x in keys || x in g[n].connections
    ensures keys' <= Universe(g, start)
  {
    forall x | x in keys' ensures x in Universe(g, start) {
      if x !in keys {
        assert x in g[n].connections;
      }
    }
  }

  /** Exploring `current` after relaxing all its neighbours keeps closure. */
  lemma ClosedExtend(g: Graph, cache: TransferCache, m: Scores, m': Scores, explored: set<State>, current: State)
    requires Closed(g, cache, m, explored) && m.gScore.Keys <= m'.gScore.Keys
    requires forall b :: IsStep(g, cache, current, b) ==> b in m'.gScore
    ensures Closed(g, cache, m', explored + {current})
  {
  }

  /** Popping `current` off a frontier of the known unexplored states
      leaves the states that stay unexplored once `current` is explored. */
  lemma PopUnexplored(live: set<State>, live': set<State>, keys: set<State>, explored: set<State>, current: State)
    requires live == keys - explored && live' == live - {current}
    ensures live' == keys - (explored + {current})
  {
  }

  /** Exploring an unexplored state of the universe shrinks what is left. */
  lemma UnexploredShrinks(universe: set<State>, explored: set<State>, current: State)
    requires current in universe && current !in explored
    ensures |universe - (explored + {current})| < |universe - explored|
  {
    var left := universe - (explored + {current});
    assert universe - explored == left + {current};
  }

  /** One iteration of the main loop for a popped state that is neither
      the goal nor explored: marks it explored and relaxes its neighbours. */
  method Visit(g: Graph, cache: TransferCache, dist: Distance, start: Name, goal: Name,
               endLine: Option<Name>, m: Scores, q: PQueue, explored: set<State>,
               ghost rank: map<State, nat>, current: State)
    returns (m': Scores, q': PQueue, explored': set<State>, ghost rank': map<State, nat>)
    requires WellFormed(g) && start in g && goal in g
    requires MapsInv(g, cache, dist, start, m, explored)
    requires Valid(q) && Live(q) == m.gScore.Keys - (explored + {current})
    requires Ranked(m, explored, rank) && Closed(g, cache, m, explored)
    requires StartStates(g, start) <= m.gScore.Keys <= Universe(g, start)
    requires forall x :: x in explored ==> !GoalMatch(goal, endLine, x)
    requires current in m.gScore && current !in explored && !GoalMatch(goal, endLine, current)
    requires Prioritized(g, dist, goal, m, q)
    ensures SearchInv(g, cache, dist, start, goal, endLine, m', q', explored', rank')
    ensures explored' == explored + {current}
    ensures forall x :: x in explored ==> m'.cameFrom[x] == m.cameFrom[x] && m'.gScore[x] == m.gScore[x]
    ensures forall b :: IsStep(g, cache, current, b) && b !in explored' ==>
              b.station in g && b in m'.gScore && m'.gScore[b] <= m.gScore[current] + CalculateCost(g, dist, current, b)
    ensures forall x :: x in m.gScore ==> x in m'.gScore && m'.gScore[x] <= m.gScore[x]
    ensures forall x :: x in m.gScore && x !in g[current.station].connections ==> Unchanged(m, m', x)
    ensures forall x :: x in m'.gScore && !Unchanged(m, m', x) ==>
              && Relaxable(g, cache, dist, explored', m, current, g[current.station].connections, x)
              && RecordedFrom(g, dist, m, m', current, x)
  {
    RankExtend(m, explored, rank, current);
    rank' := rank[current := |explored|];
    explored' := explored + {current};
    MapsInvGrow(g, cache, dist, start, m, explored, current);
    m', q' := ExpandState(g, cache, dist, start, goal, m, q, explored', current);
    RankKeep(m, m', explored', rank');
    ClosedExtend(g, cache, m, m', explored, current);
    NeighboursInUniverse(g, start, current.station, m.gScore.Keys, m'.gScore.Keys);
  }

  /** The seeded maps and frontier satisfy the loop invariant with nothing
      explored. */
  lemma SearchInvInit(g: Graph, cache: TransferCache, dist: Distance, start: Name, goal: Name,
                      endLine: Option<Name>, m0: Scores, q0: PQueue)
    requires start in g
    requires MapsInv(g, cache, dist, start, m0, {})
    requires Valid(q0) && Live(q0) == m0.gScore.Keys
    requires m0.gScore.Keys == StartStates(g, start)
    requires Prioritized(g, dist, goal, m0, q0)
    ensures SearchInv(g, cache, dist, start, goal, endLine, m0, q0, {}, map[])
  {
    assert m0.gScore.Keys - {} == m0.gScore.Keys;
    NothingExplored(g, cache, m0);
    assert StartStates(g, start) <= Universe(g, start);
  }

  /** With nothing explored the ranking and the closure hold trivially. */
  lemma NothingExplored(g: Graph, cache: TransferCache, m: Scores)
    ensures Ranked(m, {}, map[]) && Closed(g, cache, m, {})
  {
  }

  /** An empty frontier of the known unexplored states means every known
      state is explored. */
  lemma NothingLeft(live: set<State>, keys: set<State>, explored: set<State>)
    requires live == keys - explored && live == {}
    ensures keys <= explored
  {
    forall x | x in keys ensures x in explored {
      assert x !in live;
    }
  }

  /** When every known state is explored and the explored states are
      closed under steps, no walk from a start state reaches the goal. */
  lemma ExhaustedMeansNoRoute(g: Graph, cache: TransferCache, start: Name, goal: Name,
                              endLine: Option<Name>, m: Scores, explored: set<State>)
    requires start in g && Closed(g, cache, m, explored) && m.gScore.Keys <= explored
    requires StartStates(g, start) <= m.gScore.Keys
    requires forall x :: x in explored ==> !GoalMatch(goal, endLine, x)
    ensures NoRoute(g, cache, start, goal, endLine)
  {
    forall l | l in g[start].lines ensures State(start, l) in m.gScore {
      assert State(start, l) in StartStates(g, start);
    }
    forall w | IsWalk(g, cache, w) && StartState(g, start, w[0])
      ensures !GoalMatch(goal, endLine, w[|w| - 1])
    {
      ClosedHoldsWalk(g, cache, start, m, explored, w, |w| - 1);
    }
  }

  /** One iteration of the main loop: pops the least state (`popped`);
      returns it in `final` when it matches the goal, and otherwise explores
      it unless it is explored already. */
  method SearchStep(g: Graph, cache: TransferCache, dist: Distance, start: Name, goal: Name,
                    endLine: Option<Name>, m: Scores, q: PQueue, explored: set<State>,
                    ghost rank: map<State, nat>)
    returns (popped: State, final: Option<State>, m': Scores, q': PQueue, explored': set<State>,
             ghost rank': map<State, nat>)
    requires WellFormed(g) && goal in g
    requires SearchInv(g, cache, dist, start, goal, endLine, m, q, explored, rank)
    requires Live(q) != {}
    ensures exists e :: IsLeast(q, e) && e.item == Some(popped)
    ensures popped in m.gScore && popped.station in g
    ensures forall x :: x in m.gScore && x !in explored ==>
              m.gScore[popped] + Heuristic(g, dist, popped.station, goal)
                <= m.gScore[x] + Heuristic(g, dist, x.station, goal)
    ensures final.Some? ==>
              && final == Some(popped) && GoalMatch(goal, endLine, popped)
              && m' == m && explored' == explored
              && MapsInv(g, cache, dist, start, m', explored')
              && Ranked(m', explored', rank')
              && final.value in m'.gScore && final.value !in explored'
    ensures final.None? ==> SearchInv(g, cache, dist, start, goal, endLine, m', q', explored', rank')
    ensures final.None? ==>
              || |Universe(g, start) - explored'| < |Universe(g, start) - explored|
              || (explored' == explored && |q'.entries| < |q.entries|)
    ensures final.None? ==> explored' <= explored + {popped}
    ensures final.None? ==> forall x :: x in m.gScore ==> x in m'.gScore && m'.gScore[x] <= m.gScore[x]
    ensures final.None? ==>
              forall x :: x in m.gScore && x !in g[popped.station].connections ==> Unchanged(m, m', x)
    ensures final.None? ==>
              forall x :: x in m'.gScore && !Unchanged(m, m', x) ==>
                && Relaxable(g, cache, dist, explored', m, popped, g[popped.station].connections, x)
                && RecordedFrom(g, dist, m, m', popped, x)
  {
    var item, q1 := Get(q);
    popped := item.value;
    ghost var e :| IsLeast(q, e) && e.item == Some(popped);
    BestFirst(g, dist, goal, m, q, explored, e);
    PrioritizedSub(g, dist, goal, m, q, q1);
    if GoalMatch(goal, endLine, popped) {
      return popped, Some(popped), m, q1, explored, rank;
    }
    final := None;
    if popped !in explored {
      UnexploredShrinks(Universe(g, start), explored, popped);
      PopUnexplored(Live(q), Live(q1), m.gScore.Keys, explored, popped);
      m', q', explored', rank' := Visit(g, cache, dist, start, goal, endLine, m, q1, explored, rank, popped);
    } else {
      m', q', explored', rank' := m, q1, explored, rank;
    }
  }

  /** A frontier whose entries all come from a prioritized one is prioritized. */
  lemma PrioritizedSub(g: Graph, dist: Distance, goal: Name, m: Scores, q: PQueue, q1: PQueue)
    requires Prioritized(g, dist, goal, m, q)
    requires forall e :: e in q1.entries ==> e in q.entries
    ensures Prioritized(g, dist, goal, m, q1)
  {
  }

  /** The main loop: pops the least state until one matches the goal
      (returned in `final`) or the frontier has no live entry left. */
  method Search(g: Graph, cache: TransferCache, dist: Distance, start: Name, goal: Name,
                endLine: Option<Name>, m0: Scores, q0: PQueue)
    returns (final: Option<State>, m: Scores, explored: set<State>, ghost rank: map<State, nat>)
    requires WellFormed(g) && start in g && goal in g
    requires MapsInv(g, cache, dist, start, m0, {})
    requires Valid(q0) && Live(q0) == m0.gScore.Keys
    requires m0.gScore.Keys == StartStates(g, start)
    requires Prioritized(g, dist, goal, m0, q0)
    ensures final.None? ==> NoRoute(g, cache, start, goal, endLine)
    ensures final.Some? ==>
              && GoalMatch(goal, endLine, final.value)
              && MapsInv(g, cache, dist, start, m, explored)
              && Ranked(m, explored, rank)
              && final.value in m.gScore && final.value !in explored
  {
    ghost var universe := Universe(g, start);
    m := m0;
    var q := q0;
    explored := {};
    rank := map[];
    final := None;
    SearchInvInit(g, cache, dist, start, goal, endLine, m0, q0);
    while !IsEmpty(q)
      invariant final.None?
      invariant SearchInv(g, cache, dist, start, goal, endLine, m, q, explored, rank)
      decreases |universe - explored|, |q.entries|
    {
      var popped;
      popped, final, m, q, explored, rank := SearchStep(g, cache, dist, start, goal, endLine, m, q, explored, rank);
      if final.Some? {
        return;
      }
    }
    NothingLeft(Live(q), m.gScore.Keys, explored);
    ExhaustedMeansNoRoute(g, cache, start, goal, endLine, m, explored);
  }

  /** A reconstructed path whose states all carry a predecessor entry is a chain. */
  lemma ReconstructedChain(m: Scores, rank: map<State, nat>, path: seq<State>)
    requires forall x :: x in rank ==> x in m.cameFrom
    requires |path| >= 1 && forall i :: 0 <= i < |path| ==> path[i] in rank
    requires m.cameFrom[path[0]].None?
    requires forall i :: 0 <= i < |path| - 1 ==> m.cameFrom[path[i + 1]] == Some(path[i])
    ensures IsChain(m, path)
  {
  }

  /** Along a predecessor chain the steps form a walk from a start state
      whose cost and line changes are those recorded for its last state. */
  lemma ChainFacts(g: Graph, cache: TransferCache, dist: Distance, start: Name,
                   m: Scores, explored: set<State>, path: seq<State>)
    requires MapsInv(g, cache, dist, start, m, explored)
    requires IsChain(m, path)
    ensures IsWalk(g, cache, path) && StartState(g, start, path[0]) && OnGraph(g, path)
    ensures m.gScore[path[|path| - 1]] == PathCost(g, dist, path)
    ensures m.transferCounts[path[|path| - 1]] == LineChanges(path)
  {
    forall i | 0 <= i < |path| - 1 ensures IsStep(g, cache, path[i], path[i + 1]) {
      assert m.cameFrom[path[i + 1]] == Some(path[i]);
    }
    assert OnGraph(g, path);
    ChainScores(g, cache, dist, start, m, explored, path);
  }

  /** `r` is a route from a start state to a goal state: its path is a
      walk, its station list is the path's stations, and its cost, transfer
      count and itinerary are those of the path. */
  ghost predicate IsRouteFor(g: Graph, cache: TransferCache, dist: Distance, start: Name, goal: Name,
                             endLine: Option<Name>, r: Route) {
    && IsWalk(g, cache, r.path)
    && StartState(g, start, r.path[0])
    && GoalMatch(goal, endLine, r.path[|r.path| - 1])
    && |r.stations| == |r.path|
    && (forall i :: 0 <= i < |r.path| ==> r.stations[i] == r.path[i].station)
    && r.transfers == LineChanges(r.path)
    && OnGraph(g, r.path) && r.distance == PathCost(g, dist, r.path)
    && r.details == PathDetails(r.path)
  }

  /** Builds the route ending at the goal state `f` found by the search. */
  method BuildRoute(g: Graph, cache: TransferCache, dist: Distance, start: Name, goal: Name,
                    endLine: Option<Name>, m: Scores, explored: set<State>, ghost rank: map<State, nat>,
                    f: State)
    returns (r: Route)
    requires MapsInv(g, cache, dist, start, m, explored) && Ranked(m, explored, rank)
    requires GoalMatch(goal, endLine, f) && f in m.gScore && f !in explored
    ensures IsRouteFor(g, cache, dist, start, goal, endLine, r)
  {
    ghost var finalRank := rank[f := |explored|];
    var path := ReconstructPath(m.cameFrom, f, finalRank);
    ReconstructedChain(m, finalRank, path);
    ChainFacts(g, cache, dist, start, m, explored, path);
    var stations := seq(|path|, i requires 0 <= i < |path| => path[i].station);
    var details := PathDetails(path);
    r := Route(path, stations, details, m.gScore[f], m.transferCounts[f]);
  }

  /** Finds a route from `start` to `goal`, ending on `endLine` when given.
      `None` when either station is unknown or no route exists. */
  method FindPath(g: Graph, cache: TransferCache, dist: Distance, start: Name, goal: Name, endLine: Option<Name>)
    returns (result: Option<Route>)
    requires WellFormed(g)
    ensures start !in g || goal !in g ==> result.None?
    ensures result.Some? ==> IsRouteFor(g, cache, dist, start, goal, endLine, result.value)
    ensures start in g && goal in g && result.None? ==> NoRoute(g, cache, start, goal, endLine)
  {
    if start !in g || goal !in g {
      return None;
    }
    var m0, q0 := SeedFrontier(g, cache, dist, start, goal);
    var final, m, explored, rank := Search(g, cache, dist, start, goal, endLine, m0, q0);
    if final.None? {
      return None;
    }
    var r := BuildRoute(g, cache, dist, start, goal, endLine, m, explored, rank, final.value);
    return Some(r);
  }
}

=== FILE: stable_sort.dfy ===
/** A stable sort of a line's stops by their order hint. */
module OrderSort {
  import opened Network

  /** A station on one line together with its order hint. */
  datatype Stop = Stop(station: Name, order: int)

  ghost predicate Sorted(s: seq<Stop>) {
    forall i, j :: 0 <= i < j < |s| ==> s[i].order <= s[j].order
  }

  /** The stops of `s` whose order hint is `k`, in their order in `s`. */
  function WithOrder(s: seq<Stop>, k: int): seq<Stop> {
    if s == [] then []
    else (if s[0].order == k then [s[0]] else []) + WithOrder(s[1..], k)
  }

  /** Inserts `x` in front of the first element whose hint is not smaller. */
  function Insert(x: Stop, s: seq<Stop>): (r: seq<Stop>)
    ensures multiset(r) == multiset(s) + multiset{x}
    decreases |s|
  {
    if s == [] || x.order <= s[0].order then [x] + s
    else
      assert s == [s[0]] + s[1..];
      [s[0]] + Insert(x, s[1..])
  }

  /** A stop no later than the head of a sorted list can be put in front. */
  lemma SortedCons(a: Stop, t: seq<Stop>)
    requires Sorted(t) && (t != [] ==> a.order <= t[0].order)
    ensures Sorted([a] + t)
  {
    var r := [a] + t;
    forall i, j | 0 <= i < j < |r| ensures r[i].order <= r[j].order {
      if i == 0 {
        assert r[j] == t[j - 1] && t[0].order <= t[j - 1].order;
      } else {
        assert r[i] == t[i - 1] && r[j] == t[j - 1];
      }
    }
  }

  /** The tail of a sorted list is sorted. */
  lemma SortedTail(s: seq<Stop>)
    requires Sorted(s) && s != []
    ensures Sorted(s[1..])
  {
    forall i, j | 0 <= i < j < |s| - 1 ensures s[1..][i].order <= s[1..][j].order {
      assert s[1..][i] == s[i + 1] && s[1..][j] == s[j + 1];
    }
  }

  /** Inserting starts the list with the inserted stop or with the old head. */
  lemma InsertHead(x: Stop, s: seq<Stop>)
    ensures Insert(x, s) != []
    ensures Insert(x, s)[0] == x || (s != [] && Insert(x, s)[0] == s[0])
  {
  }

  lemma {:induction false} InsertSorted(x: Stop, s: seq<Stop>)
    requires Sorted(s)
    ensures Sorted(Insert(x, s))
    decreases |s|
  {
    if s == [] || x.order <= s[0].order {
      SortedCons(x, s);
    } else {
      var rest := Insert(x, s[1..]);
      SortedTail(s);
      InsertSorted(x, s[1..]);
      InsertHead(x, s[1..]);
      if s[1..] != [] {
        assert s[1..][0] == s[1] && s[0].order <= s[1].order;
      }
      SortedCons(s[0], rest);
    }
  }

  lemma HeadTailMultiset(s: seq<Stop>)
    requires s != []
    ensures multiset(s) == multiset{s[0]} + multiset(s[1..])
  {
    assert s == [s[0]] + s[1..];
  }

  /** Sorts by order hint; stops with equal hints keep their relative order. */
  function Sort(s: seq<Stop>): (r: seq<Stop>)
    ensures multiset(r) == multiset(s)
    ensures Sorted(r)
    decreases |s|
  {
    if s == [] then []
    else
      var sorted := Sort(s[1..]);
      InsertSorted(s[0], sorted);
      HeadTailMultiset(s);
      Insert(s[0], sorted)
  }

  /** Sorting neither adds nor drops stops. */
  lemma SortMembers(s: seq<Stop>, x: Stop)
    ensures x in Sort(s) <==> x in s
  {
    assert x in Sort(s) <==> x in multiset(Sort(s));
  }

  lemma {:induction false} InsertKeepsOrderClass(x: Stop, s: seq<Stop>, k: int)
    ensures WithOrder(Insert(x, s), k) == (if x.order == k then [x] else []) + WithOrder(s, k)
    decreases |s|
  {
    if s == [] || x.order <= s[0].order {
      assert ([x] + s)[1..] == s;
    } else {
      var rest := Insert(x, s[1..]);
      InsertKeepsOrderClass(x, s[1..], k);
      assert ([s[0]] + rest)[1..] == rest;
      // s[0] has a smaller hint than x, so at most one of them has hint k.
      assert WithOrder(s, k) == (if s[0].order == k then [s[0]] else []) + WithOrder(s[1..], k);
    }
  }

  /** Stability: for every hint value, the stops carrying it appear in the
      output in the same order as in the input. */
  lemma {:induction false} SortIsStable(s: seq<Stop>, k: int)
    ensures WithOrder(Sort(s), k) == WithOrder(s, k)
    decreases |s|
  {
    if s != [] {
      SortIsStable(s[1..], k);
      InsertKeepsOrderClass(s[0], Sort(s[1..]), k);
    }
  }
}

=== FILE: transfers.dfy ===
/** The transfer validator: a symmetric set of authorised line changes. */
module Transfers {
  import opened Network

  type Quad = (Name, Name, Name, Name)

  /** The cache holds (stationA, lineA, stationB, lineB) tuples. */
  datatype TransferCache = TransferCache(entries: set<Quad>)

  /** Rule `r` authorises moving from (a, la) to (b, lb), read in either direction. */
  ghost predicate Authorizes(r: TransferRule, t: Quad) {
    || t == (r.stationA, r.lineA, r.stationB, r.lineB)
    || t == (r.stationB, r.lineB, r.stationA, r.lineA)
  }

  ghost predicate SomeRuleAuthorizes(rules: seq<TransferRule>, t: Quad) {
    exists i :: 0 <= i < |rules| && Authorizes(rules[i], t)
  }

  /** Builds the cache, storing every rule in both orientations and nothing else. */
  function BuildCache(rules: seq<TransferRule>): (c: TransferCache)
    ensures forall t :: t in c.entries <==> SomeRuleAuthorizes(rules, t)
    decreases |rules|
  {
    if rules == [] then TransferCache({})
    else
      var prev := BuildCache(rules[..|rules| - 1]);
      var r := rules[|rules| - 1];
      var c := TransferCache(prev.entries
                             + {(r.stationA, r.lineA, r.stationB, r.lineB)}
                             + {(r.stationB, r.lineB, r.stationA, r.lineA)});
      assert forall t :: SomeRuleAuthorizes(rules, t) <==>
          SomeRuleAuthorizes(rules[..|rules| - 1], t) || Authorizes(r, t) by {
        forall t ensures SomeRuleAuthorizes(rules, t) ==>
            SomeRuleAuthorizes(rules[..|rules| - 1], t) || Authorizes(r, t) {
          if SomeRuleAuthorizes(rules, t) {
            var i :| 0 <= i < |rules| && Authorizes(rules[i], t);
            if i < |rules| - 1 {
              assert rules[..|rules| - 1][i] == rules[i];
            }
          }
        }
        forall t ensures SomeRuleAuthorizes(rules[..|rules| - 1], t) ==> SomeRuleAuthorizes(rules, t) {
          if SomeRuleAuthorizes(rules[..|rules| - 1], t) {
            var i :| 0 <= i < |rules| - 1 && Authorizes(rules[..|rules| - 1][i], t);
            assert rules[i] == rules[..|rules| - 1][i];
          }
        }
        forall t ensures Authorizes(r, t) ==> SomeRuleAuthorizes(rules, t) {
          if Authorizes(r, t) {
            assert Authorizes(rules[|rules| - 1], t);
          }
        }
      }
      c
  }

  /** A move between two (station, line) states is allowed when it stays on
      the same line, or when the cache holds the ordered tuple. */
  predicate IsValidTransfer(c: TransferCache, stA: Name, lineA: Name, stB: Name, lineB: Name) {
    lineA == lineB || (stA, lineA, stB, lineB) in c.entries
  }

  /** Against the rules the cache was built from: a move is valid exactly
      when it keeps the line or some rule authorises it. */
  lemma ValidTransferIff(rules: seq<TransferRule>, stA: Name, lineA: Name, stB: Name, lineB: Name)
    ensures IsValidTransfer(BuildCache(rules), stA, lineA, stB, lineB)
            <==> lineA == lineB || SomeRuleAuthorizes(rules, (stA, lineA, stB, lineB))
  {
  }

  /** Validity of a cache built from rules does not depend on the direction of travel. */
  lemma ValidTransferSymmetric(rules: seq<TransferRule>, stA: Name, lineA: Name, stB: Name, lineB: Name)
    ensures IsValidTransfer(BuildCache(rules), stA, lineA, stB, lineB)
            == IsValidTransfer(BuildCache(rules), stB, lineB, stA, lineA)
  {
    var c := BuildCache(rules);
    if (stA, lineA, stB, lineB) in c.entries {
      var i :| 0 <= i < |rules| && Authorizes(rules[i], (stA, lineA, stB, lineB));
      assert Authorizes(rules[i], (stB, lineB, stA, lineA));
    }
    if (stB, lineB, stA, lineA) in c.entries {
      var i :| 0 <= i < |rules| && Authorizes(rules[i], (stB, lineB, stA, lineA));
      assert Authorizes(rules[i], (stA, lineA, stB, lineB));
    }
  }

  /** Each rule makes both of its directions valid. */
  lemma RuleAuthorizesBothWays(rules: seq<TransferRule>, i: nat)
    requires i < |rules|
    ensures IsValidTransfer(BuildCache(rules), rules[i].stationA, rules[i].lineA, rules[i].stationB, rules[i].lineB)
    ensures IsValidTransfer(BuildCache(rules), rules[i].stationB, rules[i].lineB, rules[i].stationA, rules[i].lineA)
  {
    var r := rules[i];
    var forward := (r.stationA, r.lineA, r.stationB, r.lineB);
    var backward := (r.stationB, r.lineB, r.stationA, r.lineA);
    assert Authorizes(rules[i], forward) && Authorizes(rules[i], backward);
    assert SomeRuleAuthorizes(rules, forward) && SomeRuleAuthorizes(rules, backward);
    var c := BuildCache(rules);
    assert forward in c.entries && backward in c.entries;
  }
}
